=== FILE: README.md ===
# Atom deferral core, modelled in Dafny

Atom is a one-file WordPress plugin builder (`atom.php`). Its six static factories
(`Atom::form`, `postType`, `settings`, `ajax`, `rest`, `filter`) can be called
before WordPress has fired its `init` action. In that case each factory creates a
`Deferred*Builder`, which does three things:

- it keeps the builder in a per-category static list;
- it hands out an anonymous proxy whose `__call` records every method call;
- it hooks its own `replay` on `init`.

At `init`, `replay` constructs the real builder from the stored key. It then applies
each recorded call whose method exists on that builder, in recording order, with the
recorded arguments. Once `init` has fired, the factories return the real builder
directly.

This project models that mechanism and the configuration logic of the builders it
replays into. Host side effects (`add_action`, `add_shortcode`,
`register_post_type`, ...) are recorded as events in an effect trace.

Modules, one per file:

- `Php` (`php.dfy`): the PHP semantics the code relies on.
  - Truthiness.
  - Array keys: canonical decimal strings become integer keys, `true`/`false` become `1`/`0`, `null` becomes `""`, and an array or closure key is an "Illegal offset type" error.
  - Ordered arrays as `seq<(Key, Value)>`, where assigning an existing key keeps its position.
  - `array_merge`, `??`, `stripos`, `ucfirst`.
  - The `checkbox` case of `Atom::sanitize_field`.
- `Calls` (`calls.dfy`): call records, and method surfaces.
  - A surface is the methods `method_exists` sees. It is case-insensitive and also counts non-public methods.
  - `Admit` gives the error `call_user_func_array` raises: an undefined method, a non-public method, or too few arguments.
  - The generic replay loop, as a fold over the log.
- `Hooks` (`hooks.dfy`): the host effects.
- `Form`, `PostType`, `Settings`, `Endpoints` (Ajax and REST) and `Filter`: one module per real builder. Each has its state, its method surface, and a `Call` that dispatches one recorded call.
- `Builders` (`builders.dfy`): the six builders behind one type, and the replay of each `Deferred*Builder`, including the form replay's `shortcode` branch as written.
- `Atom` (`atom.dfy`):
  - the registry: whether `init` has fired, plus the deferred builders in creation order;
  - the factories, the proxy call and fluent chains;
  - the `init` firing, both as a fold and as a loop.

Several behaviours of the code are modelled exactly as written:

- Every deferred builder hooks its own `replay` on `init`. The firing therefore replays all deferred builders, across categories, in creation order. The static category lists are never read or cleared, so `Atom.CategoryList` is a filtered view of the registry.
- Nothing guards against a second firing. `Atom.FireInit` leaves the registry's builders in place, so firing again would replay them again.
- No replay catches an error. The first error a recorded call throws ends the request: later calls and later builders are never replayed (`Atom.RunAllBuilds`).
- A proxy keeps recording after `init` has fired. Those calls are never replayed.
- A `FormBuilder` adds its two submission actions at every `sendTo` or `onSubmit` call that leaves a handler or an e-mail address truthy; otherwise that call adds nothing. Each action captures the fields and messages as they are at that call.

One behaviour is modelled both as written and as evidently intended (see "## Findings"):

- As written, a `PostTypeBuilder` registers at its first mutating call, with the arguments it holds at that moment. Later setters update the builder but never reach `register_post_type`. `PostType.Call` models this.
- The corrected builder, `PostType.LiveCall`, schedules the same single registration, but builds its arguments from the builder when `init` runs. `Builders` takes a flag that picks one of the two for post types, and its replay lemmas hold for both. `Atom` replays post types as written.

## Model

| member | source | states |
|---|---|---|
| Php.SanitizeCheckbox | atom.php:172 | a checkbox value sanitises to "1" exactly when it is truthy, and to "0" otherwise; the result is truthy exactly when the input was, so sanitising it again changes nothing |
| Php.Stripos | atom.php:214 | the search finds nothing exactly when the needle occurs at no offset, ignoring ASCII case; a found offset is a match |
| Php.ToKey | atom.php:215 | a value converts to an array key exactly when it is not an array or a closure |
| Php.IntStringIsIntKey | atom.php:215 | the decimal string of an integer and the integer are the same array key |
| Php.Put | atom.php:215 | after `$a[$k] = $v`, k maps to v and every other key is unchanged; an existing key keeps its position, a new one is appended; keys stay unique |
| Php.ArrayMerge | atom.php:346-349 | `array_merge` yields a well-formed array: integer keys are renumbered past every key already taken, so no key occurs twice |
| Php.ArrayMergeStringKey | atom.php:346-349 | in `array_merge($a, $b)`, a string key of `$b` wins; otherwise the key keeps its value from `$a` |
| Calls.Admit | atom.php:551-554 | a call goes ahead exactly when the method is public and given its required arguments; a method that exists but is refused is non-public or short of arguments |
| Calls.Replay | atom.php:578-582 | thanks to the `method_exists` guard, a replay can throw only when some recorded name is a method of the builder |
| Calls.ReplaySkipsOnlyUnknown | atom.php:579-581 | replay equals replaying just the recognised calls, in their original relative order, with nothing else skipped |
| Calls.ReplayNothingKnown | atom.php:577-582 | a log that names no method the builder has replays to the builder as it was, with no effect and no error |
| Calls.ReplayOfKnownLog | atom.php:577-582 | when every recorded name exists, the `method_exists` guard never skips anything |
| Calls.SkipUnknownCall | atom.php:579-581 | an unknown name is dropped wherever it stands in the log, and the replay is as if it were never recorded |
| Calls.RejectedCallStops | atom.php:551-554 | without the guard, a call the builder rejects ends the run with its error once the calls before it completed |
| Calls.ReplayConcat | atom.php:578-582 | replaying two logs back to back equals replaying the first, then the second from where the first left off, unless the first threw |
| Calls.ReplayAppliesInOrder | atom.php:577-582 | against a recording builder, replay applies exactly the recognised calls, in log order, with their recorded arguments |
| Calls.AlphaBetaScenario | atom.php:577-582 | recording alpha(1), gamma(), beta("x"), alpha(2) replays alpha(1), beta("x"), alpha(2) in that order, and skips gamma |
| Calls.ReplayLoop | atom.php:578-582 | the statement-by-statement `foreach` loop computes the replay fold |
| Form.New | atom.php:196-201 | a new form has no fields, both switches off, no handler and no e-mail, the success message "Thank you!" and the error message "Failed to send." |
| Form.InferType | atom.php:214 | with no type given, a name containing "email" gives `email`; otherwise one containing "message" gives `textarea`; otherwise `text` |
| Form.Field | atom.php:206-218 | a truthy type wins, otherwise the inferred one; the `[name, type, opts]` array form is unpacked; an existing name keeps its position, a new one is appended; options are stored only when non-empty, under that key alone, leaving every other option as it was; array and closure names throw |
| Form.Submitted | atom.php:231-233 | the submitted and rendered list has `turnstile` and `captcha` exactly when enabled, and otherwise the builder's own entries; with no user field of those names, it is the fields followed by `turnstile` (if enabled) and then `captcha` (if enabled) |
| Form.Call | atom.php:202-264 | a refused call changes nothing; `shortcode` adds exactly one shortcode for its tag and this form and changes nothing else; `turnstile` and `captcha` switch on the entry the submitted field list then holds; `success` and `error` set only their message; `field` and `fields` add no effect and fail exactly when `field` or one of the names fails; `render` changes nothing; `sendTo`/`onSubmit` change only their own property and add two submit actions exactly when a handler or e-mail is set, each capturing the current field list, handler and messages, and none otherwise; a completed or failed `fields` call leaves exactly what `fields(...)` leaves |
| Form.Fields | atom.php:202-205 | `fields(...)` adds no effect, changes nothing but the field and option maps, and completes exactly when every name, once unpacked, is a legal array key |
| Form.FieldsSnoc | atom.php:202-205 | `fields(a..., b)` is `fields(a...)` followed by `field(b)`: the names are applied left to right, and the first that throws stops the rest |
| Form.FieldsStore | atom.php:202-215 | after `fields(...)` completes, every name is a field |
| Form.FieldsFrame | atom.php:202-215 | `fields(...)` leaves every key none of its names gives as it was, in the field map and in the option map |
| Form.RegisterHandler | atom.php:230-265 | two submit actions, on `wp_ajax_atom_form_<slug>_submit` and `wp_ajax_nopriv_atom_form_<slug>_submit`, exactly when the handler or the e-mail is truthy, and none otherwise; each carries the submitted field list, both messages, and the custom handler when it is truthy, else the mailer |
| PostType.New | atom.php:319-328 | a new post type holds the given slug, is unregistered, and has no fields, arguments or columns; its admin label, menu position and sortable lists are all falsy |
| PostType.RegistrationArgsLookup | atom.php:346-350 | stored arguments override the label and supports defaults, and a truthy menu position overrides both |
| PostType.Register | atom.php:344-376 | the first call schedules one `register_post_type` with the current arguments, then sets the flag; later calls do nothing |
| PostType.RegistrationArgs | atom.php:346-350 | the label is the admin label when truthy, else the capitalised slug, and `supports` lists the field names, unless a stored argument of that name overrides it; a truthy menu position is always set |
| PostType.ColumnHooks | atom.php:353-374 | the custom-column hooks are added exactly when a column is defined, the sortable filter exactly when `sortable` is truthy, the not-sortable filter exactly when `notSortable` is truthy, in that order, and nothing else |
| PostType.Store | atom.php:330-343 | each setter assigns only its own property: `field` and `column` store their entry under the given key and throw exactly on an illegal key; `public` stores its flag (default true); `icon` and `onlyFor` store `menu_icon` and `capability_type`; `label` and `menuPosition` store their value; `sortable` keeps an array or stores a falsy value; `notSortable` keeps an array or wraps a scalar in a one-element list |
| PostType.Field | atom.php:330 | `field` fails exactly on an illegal key, changing nothing; otherwise it stores its type under the key and sets the flag; it schedules at most one registration, none once registered; as written, a fresh builder's registration holds the state right after this field; corrected, it reads the builder when `init` runs |
| PostType.Fields | atom.php:329-330 | `fields(...)` schedules at most one registration, and none once the type is registered; it changes nothing but the fields and the flag, and fails exactly when a name is an illegal key; as written, the registration it schedules holds only the first name |
| PostType.FieldsStoreText | atom.php:329-330 | after `fields(...)` completes every name is a `text` field, and every other field is unchanged |
| PostType.Dispatch | atom.php:329-345 | a refused call changes nothing; an admitted setter completes exactly when its assignment does, and then leaves the assigned state with the flag set; a failed one changes nothing; an admitted `fields` call is `fields(...)` on the same builder |
| PostType.Call | atom.php:329-351 | no single call schedules a second registration; as written, a setter on a fresh builder registers with the arguments of the state that setter produced, followed by the column hooks that state asks for, and on a registered builder it only stores its value; `fields` is `fields(...)` as written |
| PostType.LiveCall | atom.php:329-351 | corrected: a refused call changes nothing; a setter stores what its assignment stores, or fails with its error and changes nothing; `fields` is `fields(...)` on the corrected builder; a fresh builder schedules exactly one registration, which reads the builder when `init` runs |
| PostType.FieldsAgree | atom.php:329-330 | `fields(...)` stores the same fields and throws the same error on the corrected builder as on the builder as written |
| PostType.LiveAndWrittenAgree | atom.php:329-351 | the correction touches only the registration effect: every call leaves the corrected builder in the same state, with the same error, as the builder as written |
| PostType.LiveReplayRegistersFinalState | atom.php:344-351 | corrected: a whole replay schedules one registration exactly when it registers the builder, and that registration receives the arguments of the finished builder |
| PostType.SnapshotDropsLaterSetters | atom.php:344-351 | as written, `postType('book')->fields('title', 'author')->public()` registers with label `Book` and `supports` holding `title` only, though the builder ends public with both fields |
| PostType.LiveBookChain | atom.php:344-351 | corrected, the same chain schedules one registration, which receives both fields and `public` |
| PostType.ReplayRegistersAtMostOnce | atom.php:345 | however many setters a replay applies, `register_post_type` is scheduled at most once, and never after the flag is set |
| Settings.New | atom.php:383-389 | a new settings page is unregistered, with no fields and no menu options |
| Settings.Register | atom.php:402-443 | the first call adds the menu hook and the fields hook, then sets the flag; later calls do nothing |
| Settings.ReplayRegistersAtMostOnce | atom.php:403 | however many setters a replay applies, the menu hook is added at most once |
| Settings.MenuDefaults | atom.php:405-411 | the menu defaults put the page under `options-general.php`, title it and its menu entry with the capitalised slug, leave position and icon null, and use the page role as capability, or `manage_options` when the role is falsy |
| Settings.MenuOptions | atom.php:405-412 | the menu merge fails exactly when the options given to `menu` are not an array |
| Settings.MenuOptionsMerge | atom.php:405-412 | every option the user gives wins over its default; every option left out keeps its default |
| Settings.AdminMenuPage | atom.php:413-417 | the page is a submenu page exactly when the merged `parent` is truthy, and it always uses the page slug |
| Settings.Call | atom.php:390-401 | a refused call changes nothing; `field` fails exactly on an illegal key, and otherwise stores its type (default `text`), stores its options only when they are non-empty, and leaves other fields alone; `onlyFor` and `menu` store their argument; the first setter adds the menu and fields hooks and later ones add nothing; `render` changes nothing |
| Settings.NullParentGivesTopLevelPage | atom.php:405-417 | a null `parent` with no role gives a top-level page with capability `manage_options` and the user's title |
| Endpoints.New | atom.php:454-458 | a new endpoint holds the given action or route, no fields, and no callback |
| Endpoints.Fields | atom.php:459-460 | `fields(...)` completes exactly when every name is a valid key, and then every name maps to `text`; every key none of the names gives is left as it was, and an existing `text` field stays `text` |
| Endpoints.Call | atom.php:459-477 | a refused call changes nothing; `field` stores its type (default `text`) under its key, leaves other fields alone and throws exactly on an illegal key; `onSubmit` sets the callback and adds the two AJAX actions `wp_ajax_<action>` and `wp_ajax_nopriv_<action>`, or for a REST builder one `rest_api_init` hook for its route (atom.php:490-508); `fields` leaves exactly what `fields(...)` leaves |
| Endpoints.EveryAjaxSubmitRegisters | atom.php:461-477 | a completed replay adds exactly two AJAX actions per `onSubmit`, and nothing else |
| Endpoints.EveryRestSubmitRegisters | atom.php:490-508 | a completed replay adds exactly one route hook per `onSubmit`, and nothing else |
| Filter.New | atom.php:515-517 | a new filter holds the given post type and an empty field list |
| Filter.Call | atom.php:514-519 | no call adds an effect; `by` appends exactly its argument to the field list; every other call changes nothing; a refused call fails with its error |
| Filter.ReplayCollectsByArguments | atom.php:514-519 | a filter replay adds no host effect; it completes exactly when every `by` call carries an argument, and then holds those arguments, appended in log order; otherwise the first bare `by` throws an ArgumentCountError for 0 of 1 arguments |
| Builders.New | atom.php:547 | the replayed builder has the category of its factory and is built from the stored key alone |
| Builders.Apply | atom.php:576-583 | applying calls keeps the builder's category, and calls that all fail the name check leave the builder as it was, with no effect |
| Builders.ReplayDeferred | atom.php:546-583 | a deferred replay yields a builder of its factory's category, and a log naming no existing method leaves the fresh builder, with no effect |
| Builders.FormReplay | atom.php:546-556 | the as-written form replay, with its `shortcode` branch, equals the common replay loop, so that branch changes nothing; it can throw only when some recorded name is a form method, and a log naming none leaves the form as it was, with no effect |
| Builders.ReplayDeferredIsApply | atom.php:576-583 | every deferred replay, with the as-written or the corrected post-type builder, is the guarded application of its log to a fresh builder |
| Builders.DeferralTransparent | atom.php:24-30 | replaying a log at `init` gives the same builder, effects and error as making its calls to existing methods, in log order, on a builder created after `init`; for a log of existing methods, that means the whole log; this holds with the as-written post-type builder and with the corrected one |
| Builders.UnknownCallDiverges | atom.php:579-581 | an unknown call is dropped by the replay wherever it stands, but on a real builder it throws "undefined method" once the calls before it completed |
| Atom.CategoryList | atom.php:18-23 | a category list holds exactly that category's deferred builders, every one of them, in creation order |
| Atom.Factory | atom.php:24-71 | before `init`, it appends one new builder to its own category's list, leaves the other lists alone, and returns its proxy; after `init`, it returns the real builder and changes nothing |
| Atom.ProxyCall | atom.php:538-541 | `__call` appends exactly (name, args) to its own log, leaves every other builder alone, and returns the same proxy |
| Atom.ChainLog | atom.php:538-541 | a chain of N proxy calls leaves the N calls, in call order, at the end of the log |
| Atom.RunAll | atom.php:543 | a firing with no error yields one builder per deferred builder; one that stops yields the builders before the one that threw, and ends with that builder's error |
| Atom.RunAllBuilds | atom.php:543 | each completed replay yields the builder of its own log, in creation order; an error stops the firing at the builder that threw it |
| Atom.FireInit | atom.php:543 | firing `init` marks it fired, keeps every deferred builder, and replays each one, as written, into a builder of its own category |
| Atom.RunAllConcat | atom.php:543 | builders created first replay first; later ones continue only if no error was thrown |
| Atom.RunAllStep | atom.php:543 | one more callback either adds its builder to an unstopped firing, or stops the firing with its error and no later builder runs |
| Atom.RunInit | atom.php:543 | the callback-by-callback loop computes the same firing as the fold |
| Atom.ScenarioFilterProxy | atom.php:66-71 | `Atom::filter('book')->by('author')->by('year')` before `init` gives proxy 0, which has both calls logged in order |
| Atom.ScenarioSettingsProxy | atom.php:40-47 | a later `Atom::settings('opts')->field('api_key')` gives proxy 1 and leaves the filter's log untouched |
| Atom.ScenarioFilterReplay | atom.php:684-691 | the filter replays to a builder that holds `author`, then `year` |
| Atom.ScenarioSettingsReplay | atom.php:603-610 | the settings replay adds the menu hook and the fields hook |
| Atom.ScenarioInit | atom.php:543 | at `init`, the filter replays first, and the settings page then adds its two hooks |

## Left out

- PHP version: the model follows PHP 8, where an array or closure used as an array key, or as the haystack of `stripos`, throws an `Error`, and where calling an undefined or non-public method through `call_user_func_array` throws. Under PHP 7 several of these are warnings that let the call continue with `null`; that behaviour is not modelled (atom.php:214, 215, 551-553, 579-580, 405).
- Hook iteration: whether WordPress runs an `init` action that is added while `init` is running is host behaviour and is not modelled. The deferred post-type replay runs during `init` and schedules its registration on `init`; the trace records that scheduling and what `register_post_type` would receive.

- Builder keys: `sanitize_key` (a WordPress function) is not modelled. A builder's slug is kept exactly as it was passed to the factory.
- Proxy method names: a call to `__construct` or `__call` on a proxy invokes the proxy's own method and is never recorded, so `Atom.ProxyCall` requires any other name. The builders' method tables also omit the constructor.
- HTML: the output of `render` and `__toString` is left out. Those calls are modelled as calls with no effect, which leaves out the following.
  - `FormBuilder::render` adds a `wp_footer` action that loads the Turnstile script, the first time a form with a `turnstile` field is rendered in a request (atom.php:289-294).
  - `FormBuilder::render` throws a TypeError from `ucwords` when a field's `label` option is an array or a closure (atom.php:276-277).
  - `SettingsBuilder::render` prints the form and calls `settings_fields`, `do_settings_sections` and `submit_button` (atom.php:444-448), which is host output.
- Request-time closures are left out: the AJAX and REST request handlers, the mailer, `wp_send_json_*`, and the column and sortable-column callbacks. These are I/O. The model records only that each hook was added and what it captured.
- Settings page registration: the `admin_init` field registration is recorded only as an event. The field labels and inputs it builds are markup.
- Static state: the Turnstile keys, the `static $turnstile_enqueued` flag, `Atom::load`, `Atom::shortcode` and `Atom::plugin` are not modelled.
- Other builders: the widget, modal, table and help-tab builders are not modelled.
- `Atom::sanitize_field`: only the `checkbox` case is modelled. The other cases call WordPress sanitisers, and the `number` case relies on numeric coercion that can produce floats.
- Strings: a PHP string is a sequence of bytes, and the model's strings are sequences of characters, so `Php.Stripos` returns a character offset where PHP returns a byte offset. Only whether the needle occurs is used, and that agrees for the ASCII needles `email` and `message` (atom.php:214).
- PHP values:
  - Floats and objects other than closures are not modelled.
  - Integers are unbounded, so integer-key overflow past 64 bits is not modelled.
  - The string form of integers and booleans is modelled; the string form of other scalars is not.
- Other `init` callbacks: callbacks that user code registers between deferred builders are not modelled. The firing contains only the deferred builders' own callbacks, at the default priority.
- Atom.FireInit: states one firing. A second firing repeats the same replays; that follows from the unchanged registry and is not stated as a separate lemma.

## Findings

| source | as written | input that shows it | evidently intended | confidence | as-written member | corrected member |
|---|---|---|---|---|---|---|
| atom.php:344-351 | `register()` copies `$args` by value into the `init` closure at the first setter, and decides the column hooks then; the `registered` flag makes every later setter skip it | `Atom::postType('book')->fields('title', 'author')->public()` (atom.php:7) registers with label `Book`, `supports` = [`title`], and no `public` | the registration carries every setter of the chain, as the usage examples at atom.php:7 and atom-all-features-example.php:40-47 show | medium, not executed | PostType.SnapshotDropsLaterSetters | PostType.LiveReplayRegistersFinalState |

=== FILE: atom.dfy ===
/** The `Atom` factories and the deferral state machine: before the host's
    `init` event a factory hands out a proxy that records calls; at `init` every
    deferred builder replays its record into a real builder. */
module Atom {
  import opened Php
  import opened Calls
  import opened Hooks
  import opened Builders
  import Filter
  import Settings

  /** One `Deferred*Builder`: its category, the key given to the factory, and the
      calls its proxy has recorded. */
  datatype Entry = Entry(category: Category, key: string, log: seq<CallRecord>)

  /** Whether `init` has fired (`did_action('init')`), and every deferred builder
      in creation order, which is also the order their `init` callbacks run in. */
  datatype Registry = Registry(fired: bool, pending: seq<Entry>)

  /** What a factory returns: the proxy of deferred builder `index`, or a real builder. */
  datatype Handle = Proxy(index: nat) | Real(builder: Builder)

  /** The deferred builders of category c, in creation order, read from the front. */
  function OfCategory(pending: seq<Entry>, c: Category): seq<Entry>
    decreases |pending|
  {
    if pending == [] then []
    else (if pending[0].category == c then [pending[0]] else []) + OfCategory(pending[1..], c)
  }

  lemma {:induction false} OfCategorySnoc(pending: seq<Entry>, e: Entry, c: Category)
    ensures OfCategory(pending + [e], c) == OfCategory(pending, c) + (if e.category == c then [e] else [])
    decreases |pending|
  {
    var tail := if e.category == c then [e] else [];
    if pending == [] {
      assert [e][1..] == [];
      assert OfCategory([e], c) == tail + OfCategory([], c);
    } else {
      var head := if pending[0].category == c then [pending[0]] else [];
      assert (pending + [e])[0] == pending[0];
      assert (pending + [e])[1..] == pending[1..] + [e];
      OfCategorySnoc(pending[1..], e, c);
      assert OfCategory(pending + [e], c) == head + (OfCategory(pending[1..], c) + tail);
      assert head + (OfCategory(pending[1..], c) + tail) == (head + OfCategory(pending[1..], c)) + tail;
    }
  }

  /** The static list of one category (`$deferred_forms` and its siblings), built
      one factory call at a time: exactly the deferred builders of that category,
      in creation order. */
  function CategoryList(pending: seq<Entry>, c: Category): (r: seq<Entry>)
    ensures r == OfCategory(pending, c)
    ensures |r| <= |pending|
    ensures forall e :: e in r ==> e in pending && e.category == c
    ensures forall i :: 0 <= i < |pending| && pending[i].category == c ==> pending[i] in r
    decreases |pending|
  {
    if pending == [] then []
    else
      var last := pending[|pending| - 1];
      assert pending == pending[..|pending| - 1] + [last];
      OfCategorySnoc(pending[..|pending| - 1], last, c);
      assert forall i :: 0 <= i < |pending| - 1 ==> pending[i] == pending[..|pending| - 1][i];
      CategoryList(pending[..|pending| - 1], c) + (if last.category == c then [last] else [])
  }

  /** `Atom::form`, `Atom::postType`, `Atom::settings`, `Atom::ajax`, `Atom::rest`
      and `Atom::filter`. */
  function Factory(reg: Registry, c: Category, key: string): (r: (Registry, Handle))
    ensures !reg.fired ==> && r.1 == Proxy(|reg.pending|)
                           && r.0 == reg.(pending := reg.pending + [Entry(c, key, [])])
                           && CategoryList(r.0.pending, c) == CategoryList(reg.pending, c) + [Entry(c, key, [])]
                           && (forall c' :: c' != c ==> CategoryList(r.0.pending, c') == CategoryList(reg.pending, c'))
    ensures reg.fired ==> r.0 == reg && r.1 == Real(New(c, key))
  {
    if !reg.fired then
      var pending := reg.pending + [Entry(c, key, [])];
      assert pending[..|pending| - 1] == reg.pending;
      (reg.(pending := pending), Proxy(|reg.pending|))
    else (reg, Real(New(c, key)))
  }

  /** The names the proxy's `__call` sees: every name except the proxy's own
      public methods, which PHP calls directly. */
  predicate Intercepted(name: string) {
    Lower(name) != "__construct" && Lower(name) != "__call"
  }

  /** The proxy's `__call($name, $args)`: records the call at the end of its
      builder's log and returns the same proxy. It neither checks nor changes
      whether `init` has fired. */
  function ProxyCall(reg: Registry, i: nat, name: string, args: seq<Value>): (r: (Registry, Handle))
    requires i < |reg.pending| && Intercepted(name)
    ensures r.1 == Proxy(i)
    ensures r.0.fired == reg.fired && |r.0.pending| == |reg.pending|
    ensures r.0.pending[i] == reg.pending[i].(log := reg.pending[i].log + [CallRecord(name, args)])
    ensures forall j :: 0 <= j < |reg.pending| && j != i ==> r.0.pending[j] == reg.pending[j]
  {
    var e := reg.pending[i];
    (reg.(pending := reg.pending[i := e.(log := e.log + [CallRecord(name, args)])]), Proxy(i))
  }

  /** A fluent chain `$proxy->a(...)->b(...)->...` on proxy `i`. */
  function Chain(reg: Registry, i: nat, calls: seq<CallRecord>): Registry
    requires i < |reg.pending|
    requires forall k :: 0 <= k < |calls| ==> Intercepted(calls[k].name)
    decreases |calls|
  {
    if calls == [] then reg
    else
      var (next, _) := ProxyCall(reg, i, calls[0].name, calls[0].args);
      Chain(next, i, calls[1..])
  }

  /** A chain of N calls leaves the N calls, in call order, at the end of the
      proxy's log, and touches nothing else. */
  lemma {:induction false} ChainLog(reg: Registry, i: nat, calls: seq<CallRecord>)
    requires i < |reg.pending|
    requires forall k :: 0 <= k < |calls| ==> Intercepted(calls[k].name)
    ensures var r := Chain(reg, i, calls);
      && r.fired == reg.fired && |r.pending| == |reg.pending|
      && r.pending[i] == reg.pending[i].(log := reg.pending[i].log + calls)
      && |r.pending[i].log| == |reg.pending[i].log| + |calls|
      && (forall j :: 0 <= j < |reg.pending| && j != i ==> r.pending[j] == reg.pending[j])
    decreases |calls|
  {
    if calls == [] {
      assert reg.pending[i].log + calls == reg.pending[i].log;
    } else {
      var (next, _) := ProxyCall(reg, i, calls[0].name, calls[0].args);
      ChainLog(next, i, calls[1..]);
      assert reg.pending[i].log + [calls[0]] + calls[1..] == reg.pending[i].log + calls;
    }
  }

  /** One deferred builder's `init` callback, with the post-type builder as written. */
  function ReplayEntry(e: Entry): Run<Builder, Effect> {
    ReplayDeferred(false, e.category, e.key, e.log)
  }

  /** What the `init` callbacks leave behind: the real builders of the replays that
      completed, every host effect in order, and the error that ended the request,
      if one did. */
  datatype InitRun = InitRun(built: seq<Builder>, effects: seq<Effect>, failure: Option<Failure>)

  /** The `init` callbacks of the deferred builders, one after another in creation
      order, each one `replay`. No callback catches an error, so the first one
      thrown ends the request and the later builders never replay. */
  function RunAll(pending: seq<Entry>, replay: Entry -> Run<Builder, Effect>): (r: InitRun)
    ensures r.failure.None? ==> |r.built| == |pending|
    ensures r.failure.Some? ==> |r.built| < |pending| && r.failure == replay(pending[|r.built|]).failure
    decreases |pending|
  {
    if pending == [] then InitRun([], [], None)
    else
      var first := replay(pending[0]);
      if first.failure.Some? then InitRun([], first.effects, first.failure)
      else
        var rest := RunAll(pending[1..], replay);
        assert rest.failure.Some? ==> pending[1..][|rest.built|] == pending[|rest.built| + 1];
        InitRun([first.state] + rest.built, first.effects + rest.effects, rest.failure)
  }

  /** Each completed replay contributes the builder of its own log, in creation
      order; a firing that stops does so at the first builder whose replay threw. */
  lemma {:induction false} RunAllBuilds(pending: seq<Entry>, replay: Entry -> Run<Builder, Effect>)
    ensures var r := RunAll(pending, replay);
      && |r.built| <= |pending|
      && (r.failure.None? ==> |r.built| == |pending|)
      && (forall i :: 0 <= i < |r.built| ==>
            replay(pending[i]).failure.None? && r.built[i] == replay(pending[i]).state)
      && (r.failure.Some? ==> |r.built| < |pending| && r.failure == replay(pending[|r.built|]).failure)
    decreases |pending|
  {
    if pending != [] && replay(pending[0]).failure.None? {
      RunAllBuilds(pending[1..], replay);
      var rest := RunAll(pending[1..], replay);
      assert forall i :: 1 <= i < |rest.built| + 1 ==> pending[i] == pending[1..][i - 1];
    }
  }

  /** The `init` event: `did_action('init')` becomes true and every deferred
      builder replays. The category lists are never cleared, so firing again would
      replay every builder again. */
  function FireInit(reg: Registry): (r: (Registry, InitRun))
    ensures r.0 == reg.(fired := true)
    ensures r.1 == RunAll(reg.pending, ReplayEntry)
    ensures |r.1.built| <= |reg.pending|
    ensures r.1.failure.None? ==> |r.1.built| == |reg.pending|
    ensures forall i :: 0 <= i < |r.1.built| ==>
      && KindOf(r.1.built[i]) == reg.pending[i].category
      && r.1.built[i] == ReplayDeferred(false, reg.pending[i].category, reg.pending[i].key, reg.pending[i].log).state
  {
    var run := RunAll(reg.pending, ReplayEntry);
    RunAllBuilds(reg.pending, ReplayEntry);
    forall i | 0 <= i < |run.built|
      ensures KindOf(run.built[i]) == reg.pending[i].category
    {
      ReplayDeferredIsApply(false, reg.pending[i].category, reg.pending[i].key, reg.pending[i].log);
    }
    (reg.(fired := true), run)
  }

  /** Creation order is replay order: the builders created first replay first, and
      the later ones continue only if no error was thrown. */
  lemma {:induction false} RunAllConcat(p1: seq<Entry>, p2: seq<Entry>, replay: Entry -> Run<Builder, Effect>)
    ensures var r1 := RunAll(p1, replay);
      r1.failure.Some? ==> RunAll(p1 + p2, replay) == r1
    ensures var r1 := RunAll(p1, replay); var r2 := RunAll(p2, replay);
      r1.failure.None? ==> RunAll(p1 + p2, replay) == InitRun(r1.built + r2.built, r1.effects + r2.effects, r2.failure)
    decreases |p1|
  {
    if p1 == [] {
      assert p1 + p2 == p2;
      var r2 := RunAll(p2, replay);
      assert [] + r2.built == r2.built && [] + r2.effects == r2.effects;
    } else {
      assert (p1 + p2)[0] == p1[0];
      assert (p1 + p2)[1..] == p1[1..] + p2;
      var first := replay(p1[0]);
      if first.failure.Some? {
        assert RunAll(p1 + p2, replay) == InitRun([], first.effects, first.failure);
      } else {
        var tail := RunAll(p1[1..] + p2, replay);
        assert RunAll(p1 + p2, replay) == InitRun([first.state] + tail.built, first.effects + tail.effects, tail.failure);
        RunAllConcat(p1[1..], p2, replay);
        var mid := RunAll(p1[1..], replay);
        if mid.failure.None? {
          var r2 := RunAll(p2, replay);
          assert [first.state] + (mid.built + r2.built) == ([first.state] + mid.built) + r2.built;
          assert first.effects + (mid.effects + r2.effects) == (first.effects + mid.effects) + r2.effects;
        }
      }
    }
  }

  /** A single callback: its builder when it completes, its error when it throws. */
  lemma RunAllOne(e: Entry, replay: Entry -> Run<Builder, Effect>)
    ensures var r := replay(e);
      RunAll([e], replay) == if r.failure.Some? then InitRun([], r.effects, r.failure)
                             else InitRun([r.state], r.effects, None)
  {
    assert [e][1..] == [];
    var r := replay(e);
    assert r.effects + [] == r.effects;
  }

  /** One more callback: a firing that has not stopped after i builders either
      adds builder i, or stops at it with its error and never runs the rest. */
  lemma RunAllStep(pending: seq<Entry>, i: nat, replay: Entry -> Run<Builder, Effect>)
    requires i < |pending|
    ensures var prev := RunAll(pending[..i], replay); var r := replay(pending[i]);
      prev.failure.None? ==>
        && (r.failure.None? ==> RunAll(pending[..i + 1], replay)
                                == InitRun(prev.built + [r.state], prev.effects + r.effects, None))
        && (r.failure.Some? ==> RunAll(pending, replay)
                                == InitRun(prev.built, prev.effects + r.effects, r.failure))
  {
    var head, e := pending[..i], pending[i];
    if RunAll(head, replay).failure.None? {
      assert pending[..i + 1] == head + [e];
      RunAllExtend(head, e, replay);
      if replay(e).failure.Some? {
        RunAllStopsAt(pending, i, replay);
      }
    }
  }

  lemma RunAllStopsAt(pending: seq<Entry>, i: nat, replay: Entry -> Run<Builder, Effect>)
    requires i < |pending|
    requires RunAll(pending[..i + 1], replay).failure.Some?
    ensures RunAll(pending, replay) == RunAll(pending[..i + 1], replay)
  {
    RunAllConcat(pending[..i + 1], pending[i + 1..], replay);
    assert pending[..i + 1] + pending[i + 1..] == pending;
  }

  lemma RunAllExtend(head: seq<Entry>, e: Entry, replay: Entry -> Run<Builder, Effect>)
    requires RunAll(head, replay).failure.None?
    ensures var prev := RunAll(head, replay); var r := replay(e);
      RunAll(head + [e], replay) == if r.failure.None? then InitRun(prev.built + [r.state], prev.effects + r.effects, None)
                                    else InitRun(prev.built, prev.effects + r.effects, r.failure)
  {
    var prev := RunAll(head, replay);
    RunAllOne(e, replay);
    RunAllConcat(head, [e], replay);
    assert prev.built + [] == prev.built;
  }

  /** The `init` firing, one callback per loop iteration; `replay` is each deferred
      builder's callback, `ReplayEntry` in the model of the source. */
  method RunInit(reg: Registry, replay: Entry -> Run<Builder, Effect>)
    returns (next: Registry, built: seq<Builder>, effects: seq<Effect>, failure: Option<Failure>)
    ensures next == reg.(fired := true)
    ensures InitRun(built, effects, failure) == RunAll(reg.pending, replay)
    ensures replay == ReplayEntry ==> (next, InitRun(built, effects, failure)) == FireInit(reg)
  {
    next := reg.(fired := true);
    built, effects, failure := [], [], None;
    var i := 0;
    while i < |reg.pending| && failure.None?
      invariant 0 <= i <= |reg.pending|
      invariant failure.None? ==> RunAll(reg.pending[..i], replay) == InitRun(built, effects, None)
      invariant failure.Some? ==> RunAll(reg.pending, replay) == InitRun(built, effects, failure)
    {
      var r := replay(reg.pending[i]);
      RunAllStep(reg.pending, i, replay);
      if r.failure.Some? {
        effects, failure := effects + r.effects, r.failure;
      } else {
        built, effects := built + [r.state], effects + r.effects;
      }
      i := i + 1;
    }
    if failure.None? {
      assert reg.pending[..i] == reg.pending;
    }
  }

  /** `Atom::filter('book')->by('author')->by('year')` before `init`: a proxy for
      builder 0, whose log holds both calls in call order. */
  lemma ScenarioFilterProxy()
    ensures Factory(Registry(false, []), FilterKind, "book")
         == (Registry(false, [Entry(FilterKind, "book", [])]), Proxy(0))
    ensures Intercepted("by")
    ensures Chain(Registry(false, [Entry(FilterKind, "book", [])]), 0, [By("author"), By("year")])
         == Registry(false, [Entry(FilterKind, "book", [By("author"), By("year")])])
  {
    LowerOfLowercase("by");
    var calls := [By("author"), By("year")];
    var r1 := Registry(false, [Entry(FilterKind, "book", [])]);
    ChainLog(r1, 0, calls);
    assert [] + calls == calls;
    assert Chain(r1, 0, calls).pending == [Entry(FilterKind, "book", calls)];
  }

  /** Then `Atom::settings('opts')->field('api_key')`: a proxy for builder 1, and
      the filter's log untouched. */
  lemma ScenarioSettingsProxy()
    ensures Factory(Registry(false, [Entry(FilterKind, "book", [By("author"), By("year")])]), SettingsKind, "opts")
         == (Registry(false, [Entry(FilterKind, "book", [By("author"), By("year")]), Entry(SettingsKind, "opts", [])]), Proxy(1))
    ensures Intercepted("field")
    ensures Chain(Registry(false, [Entry(FilterKind, "book", [By("author"), By("year")]), Entry(SettingsKind, "opts", [])]),
                  1, [SettingsField("api_key")])
         == Registry(false, [Entry(FilterKind, "book", [By("author"), By("year")]),
                             Entry(SettingsKind, "opts", [SettingsField("api_key")])])
  {
    LowerOfLowercase("field");
    var calls := [SettingsField("api_key")];
    var e1 := Entry(FilterKind, "book", [By("author"), By("year")]);
    assert [e1] + [Entry(SettingsKind, "opts", [])] == [e1, Entry(SettingsKind, "opts", [])];
    var r3 := Registry(false, [e1, Entry(SettingsKind, "opts", [])]);
    ChainLog(r3, 1, calls);
    assert [] + calls == calls;
    assert Chain(r3, 1, calls).pending == [e1, Entry(SettingsKind, "opts", calls)];
  }

  function By(field: string): CallRecord {
    CallRecord("by", [VStr(field)])
  }

  function SettingsField(name: string): CallRecord {
    CallRecord("field", [VStr(name)])
  }

  /** The filter's own replay of the two `by` calls. */
  lemma FilterByReplay()
    ensures Replay(Filter.New("book"), [By("author"), By("year")], Filter.IsMethod, Filter.Call)
         == Done(Filter.FilterState("book", [VStr("author"), VStr("year")]), [])
  {
    LowerOfLowercase("by");
    var calls := [By("author"), By("year")];
    assert Filter.IsBy(calls[0]) && Filter.IsBy(calls[1]);
    Filter.ReplayCollectsByArguments(Filter.New("book"), calls);
    assert calls[1..][1..] == [];
    assert Filter.ByArguments(calls[1..]) == [VStr("year")];
    assert Filter.ByArguments(calls) == [VStr("author"), VStr("year")];
    assert [] + [VStr("author"), VStr("year")] == [VStr("author"), VStr("year")];
  }

  /** The filter replays both `by` calls in call order and touches no host API. */
  lemma ScenarioFilterReplay()
    ensures ReplayEntry(Entry(FilterKind, "book", [By("author"), By("year")]))
         == Done(FilterBuilder(Filter.FilterState("book", [VStr("author"), VStr("year")])), [])
  {
    FilterByReplay();
    ReplayDeferredIsApply(false, FilterKind, "book", [By("author"), By("year")]);
  }

  /** The `field` call on a fresh settings page registers it and its two hooks. */
  lemma SettingsFieldCall()
    ensures var r := Settings.Call(Settings.New("opts"), SettingsField("api_key"));
      r.failure.None? && r.effects == [SettingsMenuHook("opts"), SettingsFieldsHook("opts")]
  {
    LowerOfLowercase("field");
    var c := SettingsField("api_key");
    assert Admit(Settings.Methods, c.name, |c.args|).None?;
    assert ToKey(c.args[0]).Some?;
  }

  /** The settings page's first setter registers its two hooks. */
  lemma ScenarioSettingsReplay()
    ensures var r := ReplayEntry(Entry(SettingsKind, "opts", [SettingsField("api_key")]));
      r.failure.None? && r.effects == [SettingsMenuHook("opts"), SettingsFieldsHook("opts")]
  {
    var c := SettingsField("api_key");
    var s := Settings.New("opts");
    SettingsFieldReplay();
    assert New(SettingsKind, "opts") == SettingsBuilder(s);
    assert ReplayEntry(Entry(SettingsKind, "opts", [c])) == Apply(false, SettingsBuilder(s), [c], Settings.IsMethod);
  }

  lemma SettingsFieldReplay()
    ensures var r := Replay(Settings.New("opts"), [SettingsField("api_key")], Settings.IsMethod, Settings.Call);
      r.failure.None? && r.effects == [SettingsMenuHook("opts"), SettingsFieldsHook("opts")]
  {
    LowerOfLowercase("field");
    var c := SettingsField("api_key");
    assert Settings.IsMethod(c.name);
    SettingsFieldCall();
    ReplayOne(Settings.New("opts"), c, Settings.IsMethod, Settings.Call);
  }

  /** At `init` the filter, created first, replays first; then the settings page
      registers its two hooks. */
  lemma ScenarioInit()
    ensures var run := FireInit(Registry(false, [Entry(FilterKind, "book", [By("author"), By("year")]),
                                                 Entry(SettingsKind, "opts", [SettingsField("api_key")])])).1;
      && run.failure.None?
      && run.built[0] == FilterBuilder(Filter.FilterState("book", [VStr("author"), VStr("year")]))
      && run.effects == [SettingsMenuHook("opts"), SettingsFieldsHook("opts")]
  {
    var e1 := Entry(FilterKind, "book", [By("author"), By("year")]);
    var e2 := Entry(SettingsKind, "opts", [SettingsField("api_key")]);
    ScenarioFilterReplay();
    ScenarioSettingsReplay();
    RunAllConcat([e1], [e2], ReplayEntry);
    assert [e1][1..] == [] && [e2][1..] == [];
    assert [e1] + [e2] == [e1, e2];
  }
}

=== FILE: builders.dfy ===
/** The six real builders behind one type, and the `replay` of the six
    `Deferred*Builder` classes: build the real builder from the stored key, then
    apply every recorded call whose method exists, in log order. */
module Builders {
  import opened Php
  import opened Calls
  import opened Hooks
  import Form
  import PostType
  import Settings
  import Endpoints
  import Filter

  /** The six factories, one per deferred category. */
  datatype Category = FormKind | PostTypeKind | SettingsKind | AjaxKind | RestKind | FilterKind

  /** A real builder of any category. */
  datatype Builder =
    | FormBuilder(form: Form.FormState)
    | PostTypeBuilder(postType: PostType.PostTypeState)
    | SettingsBuilder(settings: Settings.SettingsState)
    | AjaxBuilder(ajax: Endpoints.EndpointState)
    | RestBuilder(rest: Endpoints.EndpointState)
    | FilterBuilder(filter: Filter.FilterState)

  function KindOf(b: Builder): Category {
    match b
    case FormBuilder(_) => FormKind
    case PostTypeBuilder(_) => PostTypeKind
    case SettingsBuilder(_) => SettingsKind
    case AjaxBuilder(_) => AjaxKind
    case RestBuilder(_) => RestKind
    case FilterBuilder(_) => FilterKind
  }

  /** `new FormBuilder($key)`, `new PostTypeBuilder($key)` and so on. */
  function New(c: Category, key: string): (b: Builder)
    ensures KindOf(b) == c
    ensures b.FormBuilder? ==> b.form == Form.New(key)
    ensures b.PostTypeBuilder? ==> b.postType == PostType.New(key)
    ensures b.SettingsBuilder? ==> b.settings == Settings.New(key)
    ensures b.AjaxBuilder? ==> b.ajax == Endpoints.New(key)
    ensures b.RestBuilder? ==> b.rest == Endpoints.New(key)
    ensures b.FilterBuilder? ==> b.filter == Filter.New(key)
  {
    match c
    case FormKind => FormBuilder(Form.New(key))
    case PostTypeKind => PostTypeBuilder(PostType.New(key))
    case SettingsKind => SettingsBuilder(Settings.New(key))
    case AjaxKind => AjaxBuilder(Endpoints.New(key))
    case RestKind => RestBuilder(Endpoints.New(key))
    case FilterKind => FilterBuilder(Filter.New(key))
  }

  /** `method_exists` on the real builder of a category. */
  function Known(c: Category): string -> bool {
    match c
    case FormKind => Form.IsMethod
    case PostTypeKind => PostType.IsMethod
    case SettingsKind => Settings.IsMethod
    case AjaxKind => Endpoints.IsMethod
    case RestKind => Endpoints.IsMethod
    case FilterKind => Filter.IsMethod
  }

  /** The call a post-type builder makes: `PostType.Call`, the program as
      written, or `PostType.LiveCall`, the corrected builder that registers the
      state it has when `init` runs. */
  function PostTypeCall(live: bool): (PostType.PostTypeState, CallRecord) -> Run<PostType.PostTypeState, Effect> {
    if live then PostType.LiveCall else PostType.Call
  }

  /** Applies calls to a real builder, skipping the names `known` rejects and
      stopping at the first error. With `AnyName` this is user code calling the
      builder directly; with `Known` it is the replay loop. `live` picks the
      post-type builder; every other category ignores it. */
  function Apply(live: bool, b: Builder, calls: seq<CallRecord>, known: string -> bool): (r: Run<Builder, Effect>)
    ensures KindOf(r.state) == KindOf(b)
    ensures (forall i :: 0 <= i < |calls| ==> !known(calls[i].name)) ==> r == Done(b, [])
  {
    match b
    case FormBuilder(s) =>
      ReplayNothingKnown(s, calls, known, Form.Call);
      var r := Replay(s, calls, known, Form.Call); Run(FormBuilder(r.state), r.effects, r.failure)
    case PostTypeBuilder(s) =>
      ReplayNothingKnown(s, calls, known, PostTypeCall(live));
      var r := Replay(s, calls, known, PostTypeCall(live)); Run(PostTypeBuilder(r.state), r.effects, r.failure)
    case SettingsBuilder(s) =>
      ReplayNothingKnown(s, calls, known, Settings.Call);
      var r := Replay(s, calls, known, Settings.Call); Run(SettingsBuilder(r.state), r.effects, r.failure)
    case AjaxBuilder(s) =>
      ReplayNothingKnown(s, calls, known, Endpoints.AjaxCall);
      var r := Replay(s, calls, known, Endpoints.AjaxCall); Run(AjaxBuilder(r.state), r.effects, r.failure)
    case RestBuilder(s) =>
      ReplayNothingKnown(s, calls, known, Endpoints.RestCall);
      var r := Replay(s, calls, known, Endpoints.RestCall); Run(RestBuilder(r.state), r.effects, r.failure)
    case FilterBuilder(s) =>
      ReplayNothingKnown(s, calls, known, Filter.Call);
      var r := Replay(s, calls, known, Filter.Call); Run(FilterBuilder(r.state), r.effects, r.failure)
  }

  /** `DeferredFormBuilder::replay` as written: a recorded `shortcode` (compared
      case-sensitively) takes its own branch, which makes the same call as the
      general `method_exists` branch. That special case changes nothing: the
      form's replay is the common replay loop, so only a recorded call to a form
      method can throw, and a log naming none leaves the form as it was. */
  function FormReplay(s: Form.FormState, log: seq<CallRecord>): (r: Run<Form.FormState, Effect>)
    ensures r == Replay(s, log, Form.IsMethod, Form.Call)
    ensures r.failure.Some? ==> exists i :: 0 <= i < |log| && Form.IsMethod(log[i].name)
    ensures (forall i :: 0 <= i < |log| ==> !Form.IsMethod(log[i].name)) ==> r == Done(s, [])
    decreases |log|
  {
    ReplayNothingKnown(s, log, Form.IsMethod, Form.Call);
    if log == [] then Done(s, [])
    else
      var c := log[0];
      Form.ShortcodeIsMethod();
      if c.name == "shortcode" && Form.IsMethod("shortcode") then
        var r := Form.Call(s, c);
        if r.failure.Some? then r else Then(r.effects, FormReplay(r.state, log[1..]))
      else if Form.IsMethod(c.name) then
        var r := Form.Call(s, c);
        if r.failure.Some? then r else Then(r.effects, FormReplay(r.state, log[1..]))
      else FormReplay(s, log[1..])
  }

  /** `Deferred*Builder::replay()`: a fresh builder from the stored key alone, then
      the logged calls through the `method_exists` guard. The replayed builder is of
      the factory's category, and a log that names no existing method leaves it as
      created, with no effect. */
  function ReplayDeferred(live: bool, c: Category, key: string, log: seq<CallRecord>): (r: Run<Builder, Effect>)
    ensures KindOf(r.state) == c
    ensures (forall i :: 0 <= i < |log| ==> !Known(c)(log[i].name)) ==> r == Done(New(c, key), [])
  {
    if c == FormKind then
      var r := FormReplay(Form.New(key), log);
      assert Run(FormBuilder(r.state), r.effects, r.failure) == Apply(live, New(c, key), log, Known(c));
      Run(FormBuilder(r.state), r.effects, r.failure)
    else Apply(live, New(c, key), log, Known(c))
  }

  /** Every replay is the guarded application of its log to a builder built from
      the key, whatever the category. */
  lemma ReplayDeferredIsApply(live: bool, c: Category, key: string, log: seq<CallRecord>)
    ensures ReplayDeferred(live, c, key, log) == Apply(live, New(c, key), log, Known(c))
  {
    if c == FormKind {
    }
  }

  /** Deferral is transparent up to dropped names: replaying a log at `init` gives
      the same builder, effects and error as making its recognised calls, in log
      order, on a builder created after `init`. For a log of existing methods
      that is the log itself. */
  lemma {:induction false} DeferralTransparent(live: bool, c: Category, key: string, log: seq<CallRecord>)
    ensures ReplayDeferred(live, c, key, log) == Apply(live, New(c, key), Recognised(log, Known(c)), AnyName)
    ensures Recognised(log, Known(c)) == log ==> ReplayDeferred(live, c, key, log) == Apply(live, New(c, key), log, AnyName)
  {
    ReplayDeferredIsApply(live, c, key, log);
    match c
    case FormKind => ReplaySkipsOnlyUnknown(Form.New(key), log, Form.IsMethod, Form.Call);
    case PostTypeKind => ReplaySkipsOnlyUnknown(PostType.New(key), log, PostType.IsMethod, PostTypeCall(live));
    case SettingsKind => ReplaySkipsOnlyUnknown(Settings.New(key), log, Settings.IsMethod, Settings.Call);
    case AjaxKind => ReplaySkipsOnlyUnknown(Endpoints.New(key), log, Endpoints.IsMethod, Endpoints.AjaxCall);
    case RestKind => ReplaySkipsOnlyUnknown(Endpoints.New(key), log, Endpoints.IsMethod, Endpoints.RestCall);
    case FilterKind => ReplaySkipsOnlyUnknown(Filter.New(key), log, Filter.IsMethod, Filter.Call);
  }

  /** Where deferral and direct calls differ: a call to a method the builder
      lacks is silently dropped by the replay wherever it stands, while on the real
      builder it throws "undefined method" once the calls before it completed. */
  lemma {:induction false} UnknownCallDiverges(live: bool, c: Category, key: string, l1: seq<CallRecord>,
                                               call: CallRecord, l2: seq<CallRecord>)
    requires !Known(c)(call.name)
    ensures ReplayDeferred(live, c, key, l1 + [call] + l2) == ReplayDeferred(live, c, key, l1 + l2)
    ensures Apply(live, New(c, key), l1, AnyName).failure.None?
            ==> Apply(live, New(c, key), l1 + [call] + l2, AnyName).failure == Some(UndefinedMethod(call.name))
  {
    ReplayDeferredIsApply(live, c, key, l1 + [call] + l2);
    ReplayDeferredIsApply(live, c, key, l1 + l2);
    var f := UndefinedMethod(call.name);
    match c
    case FormKind =>
      SkipUnknownCall(Form.New(key), l1, call, l2, Form.IsMethod, Form.Call);
      RejectedCallStops(Form.New(key), l1, call, l2, Form.Call, f);
    case PostTypeKind =>
      SkipUnknownCall(PostType.New(key), l1, call, l2, PostType.IsMethod, PostTypeCall(live));
      RejectedCallStops(PostType.New(key), l1, call, l2, PostTypeCall(live), f);
    case SettingsKind =>
      SkipUnknownCall(Settings.New(key), l1, call, l2, Settings.IsMethod, Settings.Call);
      RejectedCallStops(Settings.New(key), l1, call, l2, Settings.Call, f);
    case AjaxKind =>
      SkipUnknownCall(Endpoints.New(key), l1, call, l2, Endpoints.IsMethod, Endpoints.AjaxCall);
      RejectedCallStops(Endpoints.New(key), l1, call, l2, Endpoints.AjaxCall, f);
    case RestKind =>
      SkipUnknownCall(Endpoints.New(key), l1, call, l2, Endpoints.IsMethod, Endpoints.RestCall);
      RejectedCallStops(Endpoints.New(key), l1, call, l2, Endpoints.RestCall, f);
    case FilterKind =>
      SkipUnknownCall(Filter.New(key), l1, call, l2, Filter.IsMethod, Filter.Call);
      RejectedCallStops(Filter.New(key), l1, call, l2, Filter.Call, f);
  }
}

=== FILE: calls.dfy ===
/** Recorded calls, method surfaces and the generic replay that every deferred
    builder performs: construct, then apply each recorded call whose name the
    real builder has, in log order, with the recorded arguments. */
module Calls {
  import opened Php

  /** One intercepted call: the method name as written and the positional arguments. */
  datatype CallRecord = CallRecord(name: string, args: seq<Value>)

  /** What a call, or a whole replay, leaves behind: the builder, the host effects
      in the order they happened, and the error that stopped it, if any. */
  datatype Run<S, E> = Run(state: S, effects: seq<E>, failure: Option<Failure>)

  function Done<S, E>(s: S, effects: seq<E>): Run<S, E> {
    Run(s, effects, None)
  }

  function Stop<S, E>(s: S, f: Failure): Run<S, E> {
    Run(s, [], Some(f))
  }

  /** Effects that happened before a run are prepended to its own. */
  function Then<S, E>(effects: seq<E>, r: Run<S, E>): Run<S, E> {
    Run(r.state, effects + r.effects, r.failure)
  }

  /** Runs `first`, and unless it failed, continues with `rest` from its state. */
  function Seq<S, E>(first: Run<S, E>, rest: S -> Run<S, E>): Run<S, E> {
    if first.failure.Some? then first else Then(first.effects, rest(first.state))
  }

  /** The methods of a PHP class: the public ones, lower-cased, with their number of
      required parameters, and the protected or private ones. */
  datatype Surface = Surface(public: map<string, nat>, hidden: set<string>)

  /** `method_exists`: case-insensitive, and true for non-public methods too. */
  predicate Has(surface: Surface, name: string) {
    Lower(name) in surface.public || Lower(name) in surface.hidden
  }

  /** The error PHP raises before the body of `name` runs, if any: an undefined
      method, a method not visible from the caller, or too few arguments. Extra
      arguments are ignored, as PHP does for non-variadic user functions. */
  function Admit(surface: Surface, name: string, given: nat): (r: Option<Failure>)
    ensures r.None? <==> Lower(name) in surface.public && given >= surface.public[Lower(name)]
    ensures r.Some? && Has(surface, name) ==> r.value.NotAccessible? || r.value.ArgumentCount?
    ensures !Has(surface, name) ==> r == Some(UndefinedMethod(name))
  {
    var m := Lower(name);
    if m in surface.public then
      if given < surface.public[m] then Some(ArgumentCount(name, given, surface.public[m])) else None
    else if m in surface.hidden then Some(NotAccessible(name))
    else Some(UndefinedMethod(name))
  }

  /** Positional argument i, or the parameter's default when it was not passed. */
  function Arg(args: seq<Value>, i: nat, default: Value): Value {
    if i < |args| then args[i] else default
  }

  /** The replay loop of a deferred builder (`foreach ($this->calls as [$name, $args])`
      guarded by `method_exists`): a recorded name the builder lacks is skipped; an
      error thrown by a call ends the replay with the effects produced so far. */
  function Replay<S, E>(s: S, log: seq<CallRecord>, known: string -> bool,
                        call: (S, CallRecord) -> Run<S, E>): (r: Run<S, E>)
    ensures r.failure.Some? ==> exists i :: 0 <= i < |log| && known(log[i].name)
    decreases |log|
  {
    if log == [] then Done(s, [])
    else if !known(log[0].name) then
      var r := Replay(s, log[1..], known, call);
      assert r.failure.Some? ==> exists i :: 1 <= i < |log| && known(log[i].name) by {
        if r.failure.Some? {
          var i :| 0 <= i < |log[1..]| && known(log[1..][i].name);
          assert log[i + 1] == log[1..][i];
        }
      }
      r
    else
      var r := call(s, log[0]);
      if r.failure.Some? then r else Then(r.effects, Replay(r.state, log[1..], known, call))
  }

  /** A log of one call the builder has, completing. */
  lemma ReplayOne<S, E>(s: S, c: CallRecord, known: string -> bool, call: (S, CallRecord) -> Run<S, E>)
    requires known(c.name) && call(s, c).failure.None?
    ensures Replay(s, [c], known, call) == Done(call(s, c).state, call(s, c).effects)
  {
    assert [c][1..] == [];
    assert call(s, c).effects + [] == call(s, c).effects;
  }

  /** A log of two calls the builder has, both completing. */
  lemma ReplayPair<S, E>(s: S, c0: CallRecord, c1: CallRecord, known: string -> bool,
                         call: (S, CallRecord) -> Run<S, E>)
    requires known(c0.name) && known(c1.name)
    requires call(s, c0).failure.None? && call(call(s, c0).state, c1).failure.None?
    ensures var r0 := call(s, c0); var r1 := call(r0.state, c1);
      Replay(s, [c0, c1], known, call) == Done(r1.state, r0.effects + r1.effects)
  {
    var r0 := call(s, c0);
    var r1 := call(r0.state, c1);
    assert [c0, c1][1..] == [c1];
    assert [c1][1..] == [];
    assert Replay(r1.state, [c1][1..], known, call) == Done(r1.state, []);
    assert r1.effects + [] == r1.effects;
    assert Replay(r0.state, [c1], known, call) == Done(r1.state, r1.effects);
  }

  /** The recorded calls whose names pass `known`, in their original order. */
  function Recognised(log: seq<CallRecord>, known: string -> bool): (r: seq<CallRecord>)
    ensures |r| <= |log|
    ensures forall c :: c in r ==> c in log && known(c.name)
    decreases |log|
  {
    if log == [] then []
    else if known(log[0].name) then [log[0]] + Recognised(log[1..], known)
    else Recognised(log[1..], known)
  }

  predicate AnyName(name: string) {
    true
  }

  /** Skipping unknown names is the only filtering replay does: replaying a log is
      replaying its recognised calls, in order, with nothing skipped. */
  lemma {:induction false} ReplaySkipsOnlyUnknown<S, E>(s: S, log: seq<CallRecord>, known: string -> bool,
                                                       call: (S, CallRecord) -> Run<S, E>)
    ensures Replay(s, log, known, call) == Replay(s, Recognised(log, known), AnyName, call)
    decreases |log|
  {
    if log != [] {
      var rest := Recognised(log[1..], known);
      if known(log[0].name) {
        assert Recognised(log, known) == [log[0]] + rest;
        assert ([log[0]] + rest)[1..] == rest;
        var r := call(s, log[0]);
        if r.failure.None? {
          ReplaySkipsOnlyUnknown(r.state, log[1..], known, call);
        }
      } else {
        ReplaySkipsOnlyUnknown(s, log[1..], known, call);
      }
    }
  }

  /** A log naming nothing the builder has replays to nothing: the builder as it
      was, no effect, no error. */
  lemma {:induction false} ReplayNothingKnown<S, E>(s: S, log: seq<CallRecord>, known: string -> bool,
                                                    call: (S, CallRecord) -> Run<S, E>)
    ensures (forall i :: 0 <= i < |log| ==> !known(log[i].name)) ==> Replay(s, log, known, call) == Done(s, [])
    decreases |log|
  {
    if log != [] && forall i :: 0 <= i < |log| ==> !known(log[i].name) {
      assert forall i :: 0 <= i < |log[1..]| ==> log[1..][i] == log[i + 1];
      ReplayNothingKnown(s, log[1..], known, call);
    }
  }

  /** When every recorded name is known, the guard never fires and replay applies
      every call. */
  lemma {:induction false} ReplayOfKnownLog<S, E>(s: S, log: seq<CallRecord>, known: string -> bool,
                                                 call: (S, CallRecord) -> Run<S, E>)
    requires forall i :: 0 <= i < |log| ==> known(log[i].name)
    ensures Replay(s, log, known, call) == Replay(s, log, AnyName, call)
    decreases |log|
  {
    if log != [] {
      var r := call(s, log[0]);
      if r.failure.None? {
        ReplayOfKnownLog(r.state, log[1..], known, call);
      }
    }
  }

  /** Replay is a left fold: replaying `l1 + l2` replays `l1` and then, unless it
      failed, `l2` from where `l1` left the builder. */
  lemma {:induction false} ReplayConcat<S, E>(s: S, l1: seq<CallRecord>, l2: seq<CallRecord>,
                                             known: string -> bool, call: (S, CallRecord) -> Run<S, E>)
    ensures Replay(s, l1 + l2, known, call)
         == Seq(Replay(s, l1, known, call), (t: S) => Replay(t, l2, known, call))
    decreases |l1|
  {
    if l1 == [] {
      assert l1 + l2 == l2;
      assert Replay(s, l2, known, call).effects == [] + Replay(s, l2, known, call).effects;
    } else {
      assert (l1 + l2)[0] == l1[0];
      assert (l1 + l2)[1..] == l1[1..] + l2;
      if !known(l1[0].name) {
        ReplayConcat(s, l1[1..], l2, known, call);
      } else {
        var r := call(s, l1[0]);
        if r.failure.None? {
          ReplayConcat(r.state, l1[1..], l2, known, call);
          var mid := Replay(r.state, l1[1..], known, call);
          if mid.failure.None? {
            var fin := Replay(mid.state, l2, known, call);
            assert r.effects + (mid.effects + fin.effects) == (r.effects + mid.effects) + fin.effects;
          }
        }
      }
    }
  }

  /** The guard drops an unknown call wherever it stands in the log. */
  lemma SkipUnknownCall<S, E>(s: S, l1: seq<CallRecord>, c: CallRecord, l2: seq<CallRecord>,
                              known: string -> bool, call: (S, CallRecord) -> Run<S, E>)
    requires !known(c.name)
    ensures Replay(s, l1 + [c] + l2, known, call) == Replay(s, l1 + l2, known, call)
  {
    ReplayConcat(s, l1, [c] + l2, known, call);
    ReplayConcat(s, l1, l2, known, call);
    assert l1 + [c] + l2 == l1 + ([c] + l2);
    assert ([c] + l2)[0] == c && ([c] + l2)[1..] == l2;
  }

  /** Without the guard, a call the builder rejects ends the run with its error,
      provided the calls before it completed. */
  lemma RejectedCallStops<S, E>(s: S, l1: seq<CallRecord>, c: CallRecord, l2: seq<CallRecord>,
                                call: (S, CallRecord) -> Run<S, E>, f: Failure)
    requires forall t :: call(t, c).failure == Some(f)
    ensures Replay(s, l1, AnyName, call).failure.None?
            ==> Replay(s, l1 + [c] + l2, AnyName, call).failure == Some(f)
  {
    ReplayConcat(s, l1, [c] + l2, AnyName, call);
    assert l1 + [c] + l2 == l1 + ([c] + l2);
    var mid := Replay(s, l1, AnyName, call);
    if mid.failure.None? {
      assert ([c] + l2)[0] == c && AnyName(c.name);
      assert Replay(mid.state, [c] + l2, AnyName, call) == call(mid.state, c);
    }
  }

  /** A stand-in builder that only records the calls applied to it. */
  function Trace(applied: seq<CallRecord>, c: CallRecord): Run<seq<CallRecord>, CallRecord> {
    Done(applied + [c], [c])
  }

  /** Order and argument fidelity: against a recording builder, replay applies
      exactly the recognised calls, in log order, with their recorded arguments. */
  lemma {:induction false} ReplayAppliesInOrder(applied: seq<CallRecord>, log: seq<CallRecord>, known: string -> bool)
    ensures Replay(applied, log, known, Trace)
         == Done(applied + Recognised(log, known), Recognised(log, known))
    decreases |log|
  {
    if log != [] {
      var rest := Recognised(log[1..], known);
      if known(log[0].name) {
        var next := applied + [log[0]];
        TraceStep(applied, log, known);
        ReplayAppliesInOrder(next, log[1..], known);
        assert next + rest == applied + ([log[0]] + rest);
      } else {
        ReplayAppliesInOrder(applied, log[1..], known);
      }
    } else {
      assert applied + [] == applied;
    }
  }

  /** A known call is recorded by the stand-in builder and then the replay goes on. */
  lemma TraceStep(applied: seq<CallRecord>, log: seq<CallRecord>, known: string -> bool)
    requires log != [] && known(log[0].name)
    ensures Recognised(log, known) == [log[0]] + Recognised(log[1..], known)
    ensures Replay(applied, log, known, Trace)
         == Then([log[0]], Replay(applied + [log[0]], log[1..], known, Trace))
  {
    assert Trace(applied, log[0]) == Done(applied + [log[0]], [log[0]]);
  }

  /** A builder whose only methods are `alpha` and `beta`. */
  predicate AlphaBeta(name: string) {
    name == "alpha" || name == "beta"
  }

  /** Recording `alpha(1)`, `gamma()`, `beta("x")`, `alpha(2)` and replaying it
      applies `alpha(1)`, `beta("x")`, `alpha(2)`, in that order, with those
      arguments, and skips `gamma`. */
  lemma AlphaBetaScenario()
    ensures var log := [CallRecord("alpha", [VInt(1)]), CallRecord("gamma", []),
                        CallRecord("beta", [VStr("x")]), CallRecord("alpha", [VInt(2)])];
      var applied := [CallRecord("alpha", [VInt(1)]), CallRecord("beta", [VStr("x")]), CallRecord("alpha", [VInt(2)])];
      Replay([], log, AlphaBeta, Trace) == Done(applied, applied)
  {
    var a1, g, b, a2 := CallRecord("alpha", [VInt(1)]), CallRecord("gamma", []),
                        CallRecord("beta", [VStr("x")]), CallRecord("alpha", [VInt(2)]);
    ReplayAppliesInOrder([], [a1, g, b, a2], AlphaBeta);
    AlphaBetaRecognised(a1, g, b, a2);
    assert [] + [a1, b, a2] == [a1, b, a2];
  }

  lemma AlphaBetaRecognised(a1: CallRecord, g: CallRecord, b: CallRecord, a2: CallRecord)
    requires AlphaBeta(a1.name) && !AlphaBeta(g.name) && AlphaBeta(b.name) && AlphaBeta(a2.name)
    ensures Recognised([a1, g, b, a2], AlphaBeta) == [a1, b, a2]
  {
    var log := [a1, g, b, a2];
    assert log[1..] == [g, b, a2] && [g, b, a2][1..] == [b, a2] && [b, a2][1..] == [a2] && [a2][1..] == [];
    assert Recognised([a2], AlphaBeta) == [a2];
    assert Recognised([b, a2], AlphaBeta) == [b, a2];
    assert Recognised([g, b, a2], AlphaBeta) == [b, a2];
  }

  /** The loop of a deferred builder's `replay`, statement by statement. */
  method ReplayLoop<S, E>(s0: S, log: seq<CallRecord>, known: string -> bool,
                          call: (S, CallRecord) -> Run<S, E>)
    returns (s: S, effects: seq<E>, failure: Option<Failure>)
    ensures Run(s, effects, failure) == Replay(s0, log, known, call)
  {
    s, effects, failure := s0, [], None;
    var i := 0;
    while i < |log| && failure.None?
      invariant 0 <= i <= |log|
      invariant failure.None? ==> Then(effects, Replay(s, log[i..], known, call)) == Replay(s0, log, known, call)
      invariant failure.Some? ==> Run(s, effects, failure) == Replay(s0, log, known, call)
    {
      assert log[i..][0] == log[i] && log[i..][1..] == log[i + 1..];
      if known(log[i].name) {
        var r := call(s, log[i]);
        if r.failure.None? {
          var rest := Replay(r.state, log[i + 1..], known, call);
          assert effects + (r.effects + rest.effects) == (effects + r.effects) + rest.effects;
        }
        s, effects, failure := r.state, effects + r.effects, r.failure;
      }
      i := i + 1;
    }
    if failure.None? {
      assert effects + [] == effects;
    }
  }
}

=== FILE: endpoints.dfy ===
/** `AjaxBuilder` and `RestBuilder`: a field map and a callback, and one host
    registration per `onSubmit` call. */
module Endpoints {
  import opened Php
  import opened Calls
  import opened Hooks

  /** The state of both endpoint builders: the action or route, the fields and the callback. */
  datatype EndpointState = EndpointState(target: string, fields: Entries, callback: Value)

  /** `new AjaxBuilder($action)` and `new RestBuilder($route)`. */
  function New(target: string): (s: EndpointState)
    ensures s.target == target && s.fields == [] && !Truthy(s.callback)
  {
    EndpointState(target, [], VNull)
  }

  const Methods := Surface(map["fields" := 0, "field" := 1, "onsubmit" := 1], {})

  predicate IsMethod(name: string) {
    Has(Methods, name)
  }

  /** `fields(...$fields)`: `$this->fields[$f] = 'text'` for each argument; an
      array argument is an illegal offset. */
  function Fields(s: EndpointState, names: seq<Value>): (r: Run<EndpointState, Effect>)
    ensures r.effects == [] && r.state.target == s.target && r.state.callback == s.callback
    ensures r.failure.None? <==> forall i :: 0 <= i < |names| ==> ToKey(names[i]).Some?
    ensures r.failure.None? ==> forall i :: 0 <= i < |names| ==> Lookup(r.state.fields, ToKey(names[i]).value) == Some(VStr("text"))
    ensures forall k :: Lookup(s.fields, k) == Some(VStr("text")) ==> Lookup(r.state.fields, k) == Some(VStr("text"))
    ensures forall k :: (forall i :: 0 <= i < |names| ==> ToKey(names[i]) != Some(k)) ==>
      Lookup(r.state.fields, k) == Lookup(s.fields, k)
    decreases |names|
  {
    if names == [] then Done(s, [])
    else match SetEntry(s.fields, names[0], VStr("text"), "field")
      case Err(f) => Stop(s, f)
      case Ok(fields) =>
        var r := Fields(s.(fields := fields), names[1..]);
        assert forall i :: 1 <= i < |names| ==> names[i] == names[1..][i - 1];
        r
  }

  /** What `onSubmit` registers: two AJAX actions for an `AjaxBuilder`, one REST
      route hook for a `RestBuilder`. */
  function Registration(rest: bool, s: EndpointState): seq<Effect> {
    if rest then [RestRouteHook(s.target)]
    else [AjaxAction("wp_ajax_" + s.target), AjaxAction("wp_ajax_nopriv_" + s.target)]
  }

  /** A call on an `AjaxBuilder` (rest == false) or `RestBuilder` (rest == true). */
  function Call(rest: bool, s: EndpointState, c: CallRecord): (r: Run<EndpointState, Effect>)
    ensures Admit(Methods, c.name, |c.args|).Some? ==>
      r.failure == Admit(Methods, c.name, |c.args|) && r.state == s && r.effects == []
    ensures Admit(Methods, c.name, |c.args|).None? && Lower(c.name) == "fields" ==>
      && (r.failure.None? <==> forall i :: 0 <= i < |c.args| ==> ToKey(c.args[i]).Some?)
      && r.effects == [] && r.state.target == s.target && r.state.callback == s.callback
      && r == Fields(s, c.args)
    ensures Admit(Methods, c.name, |c.args|).None? && Lower(c.name) == "field" ==>
      && r.effects == []
      && (r.failure.None? <==> ToKey(c.args[0]).Some?)
      && (r.failure.Some? ==> r.failure == Some(IllegalOffset("field")) && r.state == s)
      && (r.failure.None? ==>
            && Lookup(r.state.fields, ToKey(c.args[0]).value) == Some(Arg(c.args, 1, VStr("text")))
            && (forall k :: k != ToKey(c.args[0]).value ==> Lookup(r.state.fields, k) == Lookup(s.fields, k))
            && r.state == s.(fields := r.state.fields))
    ensures Admit(Methods, c.name, |c.args|).None? && Lower(c.name) == "onsubmit" ==>
      && r.failure.None? && r.state == s.(callback := c.args[0])
      && r.effects == (if rest then [RestRouteHook(s.target)]
                       else [AjaxAction("wp_ajax_" + s.target), AjaxAction("wp_ajax_nopriv_" + s.target)])
  {
    match Admit(Methods, c.name, |c.args|)
    case Some(f) => Stop(s, f)
    case None =>
      var m := Lower(c.name);
      var a := Arg(c.args, 0, VNull);
      if m == "fields" then Fields(s, c.args)
      else if m == "field" then
        (match SetEntry(s.fields, a, Arg(c.args, 1, VStr("text")), "field")
         case Err(f) => Stop(s, f)
         case Ok(fields) => Done(s.(fields := fields), []))
      else Done(s.(callback := a), Registration(rest, s))
  }

  function AjaxCall(s: EndpointState, c: CallRecord): Run<EndpointState, Effect> {
    Call(false, s, c)
  }

  function RestCall(s: EndpointState, c: CallRecord): Run<EndpointState, Effect> {
    Call(true, s, c)
  }

  /** The number of calls in a log whose name is `onSubmit` in any letter case. */
  function Submits(log: seq<CallRecord>): nat
    decreases |log|
  {
    if log == [] then 0
    else (if Lower(log[0].name) == "onsubmit" then 1 else 0) + Submits(log[1..])
  }

  /** Unlike the post-type and settings builders, endpoints have no "registered"
      guard: a replay that completes registers an AJAX action pair for every
      `onSubmit` in the log, and nothing else. */
  lemma {:induction false} EveryAjaxSubmitRegisters(s: EndpointState, log: seq<CallRecord>)
    ensures var r := Replay(s, log, IsMethod, AjaxCall);
      r.failure.None? ==> (|r.effects| == 2 * Submits(log) && forall e :: e in r.effects ==> e.AjaxAction?)
    decreases |log|
  {
    if log != [] {
      if IsMethod(log[0].name) {
        var r := AjaxCall(s, log[0]);
        if r.failure.None? {
          EveryAjaxSubmitRegisters(r.state, log[1..]);
        }
      } else {
        EveryAjaxSubmitRegisters(s, log[1..]);
      }
    }
  }

  /** A completed REST replay adds one route hook per `onSubmit`, and nothing else. */
  lemma {:induction false} EveryRestSubmitRegisters(s: EndpointState, log: seq<CallRecord>)
    ensures var r := Replay(s, log, IsMethod, RestCall);
      r.failure.None? ==> (|r.effects| == Submits(log) && forall e :: e in r.effects ==> e == RestRouteHook(s.target))
    decreases |log|
  {
    if log != [] {
      if IsMethod(log[0].name) {
        var r := RestCall(s, log[0]);
        if r.failure.None? {
          EveryRestSubmitRegisters(r.state, log[1..]);
        }
      } else {
        EveryRestSubmitRegisters(s, log[1..]);
      }
    }
  }
}

=== FILE: filter.dfy ===
/** `FilterBuilder`: an ordered list of fields to filter a post type by. */
module Filter {
  import opened Php
  import opened Calls
  import opened Hooks

  datatype FilterState = FilterState(postType: string, fields: seq<Value>)

  /** `new FilterBuilder($post_type)`. */
  function New(postType: string): (s: FilterState)
    ensures s.postType == postType && s.fields == []
  {
    FilterState(postType, [])
  }

  const Methods := Surface(map["by" := 1, "render" := 0], {})

  predicate IsMethod(name: string) {
    Has(Methods, name)
  }

  /** A call on a `FilterBuilder`: `by` appends (`$this->fields[] = $field`),
      `render` only prints. */
  function Call(s: FilterState, c: CallRecord): (r: Run<FilterState, Effect>)
    ensures r.effects == [] && r.state.postType == s.postType
    ensures r.failure.None? <==> Admit(Methods, c.name, |c.args|).None?
    ensures r.failure.Some? ==> r.failure == Admit(Methods, c.name, |c.args|) && r.state == s
    ensures r.failure.None? && Lower(c.name) == "by" ==>
      |r.state.fields| == |s.fields| + 1 && r.state.fields[..|s.fields|] == s.fields
      && r.state.fields[|s.fields|] == c.args[0]
    ensures Lower(c.name) != "by" ==> r.state == s
  {
    match Admit(Methods, c.name, |c.args|)
    case Some(f) => Stop(s, f)
    case None =>
      if Lower(c.name) == "by" then Done(s.(fields := s.fields + [c.args[0]]), [])
      else Done(s, [])
  }

  predicate IsBy(c: CallRecord) {
    Lower(c.name) == "by"
  }

  /** Every `by` call of the log carries the argument `by` requires. */
  predicate ByCarriesArgument(log: seq<CallRecord>) {
    forall i :: 0 <= i < |log| && IsBy(log[i]) ==> |log[i].args| >= 1
  }

  /** The first arguments of the `by` calls of a log, in log order. */
  function ByArguments(log: seq<CallRecord>): seq<Value>
    requires ByCarriesArgument(log)
    decreases |log|
  {
    if log == [] then []
    else (if IsBy(log[0]) then [log[0].args[0]] else []) + ByArguments(log[1..])
  }

  /** One recorded call the filter builder has: a `by` appends its argument, and
      `render` changes nothing. */
  lemma CallStep(s: FilterState, c: CallRecord)
    requires IsBy(c) ==> |c.args| >= 1
    ensures IsMethod(c.name) ==>
      Call(s, c) == Done(if IsBy(c) then s.(fields := s.fields + [c.args[0]]) else s, [])
    ensures IsBy(c) ==> IsMethod(c.name)
  {
  }

  /** Replaying a filter log never reaches the host. It completes exactly when
      every `by` call carries an argument, and then appends those arguments in log
      order, any other name being skipped or only printing; otherwise the first
      bare `by` throws an ArgumentCountError for 0 of 1 arguments. */
  lemma {:induction false} ReplayCollectsByArguments(s: FilterState, log: seq<CallRecord>)
    ensures var r := Replay(s, log, IsMethod, Call);
      && r.effects == []
      && (r.failure.None? <==> ByCarriesArgument(log))
      && (r.failure.Some? ==> r.failure.value.ArgumentCount? && r.failure.value.given == 0 && r.failure.value.required == 1)
      && (ByCarriesArgument(log) ==> r.state == s.(fields := s.fields + ByArguments(log)))
    decreases |log|
  {
    if log != [] {
      var c, tail := log[0], log[1..];
      if IsBy(c) && |c.args| == 0 {
        assert Admit(Methods, c.name, 0) == Some(ArgumentCount(c.name, 0, 1));
        assert IsMethod(c.name);
        assert Replay(s, log, IsMethod, Call) == Stop(s, ArgumentCount(c.name, 0, 1));
        assert !ByCarriesArgument(log) by { assert IsBy(log[0]) && |log[0].args| == 0; }
      } else {
        assert forall i :: 0 <= i < |tail| ==> tail[i] == log[i + 1];
        assert ByCarriesArgument(log) <==> ByCarriesArgument(tail);
        var next := if IsBy(c) then s.(fields := s.fields + [c.args[0]]) else s;
        ReplayCollectsByArguments(next, tail);
        var rest := Replay(next, tail, IsMethod, Call);
        if ByCarriesArgument(log) {
          assert ByArguments(log) == (if IsBy(c) then [c.args[0]] else []) + ByArguments(tail);
          assert s.fields + ByArguments(log) == next.fields + ByArguments(tail);
        }
        if IsMethod(c.name) {
          CallStep(s, c);
          assert Replay(s, log, IsMethod, Call) == Then([], rest);
          assert [] + rest.effects == rest.effects;
        } else {
          assert !IsBy(c) by { CallStep(s, c); }
          assert Replay(s, log, IsMethod, Call) == rest;
        }
      }
    } else {
      assert s.fields + [] == s.fields;
    }
  }
}

=== FILE: form.dfy ===
/** `FormBuilder`: fields with inferred types, messages, anti-spam switches, and
    the submit handler and shortcode it registers with the host. */
module Form {
  import opened Php
  import opened Calls
  import opened Hooks

  datatype FormState = FormState(
    slug: string,
    fields: Entries,     // field name -> type
    options: Entries,    // field name -> options array
    turnstile: bool,
    captcha: bool,
    email: Value,
    handler: Value,
    successMessage: Value,
    errorMessage: Value)

  /** `new FormBuilder($slug)`. */
  function New(slug: string): (s: FormState)
    ensures s.slug == slug && s.fields == [] && s.options == []
    ensures !s.turnstile && !s.captcha && !Truthy(s.email) && !Truthy(s.handler)
    ensures s.successMessage == VStr("Thank you!") && s.errorMessage == VStr("Failed to send.")
  {
    FormState(slug, [], [], false, false, VNull, VNull, VStr("Thank you!"), VStr("Failed to send."))
  }

  const Methods := Surface(
    map["fields" := 0, "field" := 1, "success" := 1, "error" := 1, "turnstile" := 0,
        "captcha" := 0, "sendto" := 1, "onsubmit" := 1, "shortcode" := 1, "render" := 0,
        "__tostring" := 0],
    {"registerhandler"})

  predicate IsMethod(name: string) {
    Has(Methods, name)
  }

  lemma ShortcodeIsMethod()
    ensures IsMethod("shortcode")
  {
    LowerOfLowercase("shortcode");
  }

  ghost predicate Mentions(name: string, word: string) {
    exists i :: MatchesAt(name, word, i)
  }

  /** The type a field gets when none is given. */
  function InferType(name: string): (t: string)
    ensures Mentions(name, "email") ==> t == "email"
    ensures !Mentions(name, "email") && Mentions(name, "message") ==> t == "textarea"
    ensures !Mentions(name, "email") && !Mentions(name, "message") ==> t == "text"
  {
    if Stripos(name, "email").Some? then "email"
    else if Stripos(name, "message").Some? then "textarea"
    else "text"
  }

  /** The name, type and options `field` works with: an array argument
      `[name, type, opts]` replaces both parameters. */
  function Unpack(name: Value, typ: Value): (Value, Value, Value) {
    match name
    case VArr(e) => (Coalesce(e, IntKey(0), VStr("")), Coalesce(e, IntKey(1), VNull), Coalesce(e, IntKey(2), VArr([])))
    case _ => (name, typ, VArr([]))
  }

  /** The type `field` stores: the given one when truthy, otherwise the inferred one. */
  function StoredType(name: Value, typ: Value): Value
    requires StringOf(name).Some?
  {
    if Truthy(typ) then typ else VStr(InferType(StringOf(name).value))
  }

  /** `FormBuilder::field($name, $type = null)`. */
  function Field(s: FormState, name: Value, typ: Value): (r: Result<FormState>)
    ensures var (n, t, o) := Unpack(name, typ);
      && (r.Err? <==> n.VArr? || n.VClosure?)
      && (r.Ok? ==>
            var k := ToKey(n).value;
            && (Truthy(t) ==> Lookup(r.value.fields, k) == Some(t))
            && (!Truthy(t) ==> Lookup(r.value.fields, k) == Some(VStr(InferType(StringOf(n).value))))
            && (forall k' :: k' != k ==> Lookup(r.value.fields, k') == Lookup(s.fields, k'))
            && (Lookup(s.fields, k).Some? ==> Keys(r.value.fields) == Keys(s.fields))
            && (Lookup(s.fields, k).None? ==> Keys(r.value.fields) == Keys(s.fields) + [k])
            && (Truthy(o) ==> Lookup(r.value.options, k) == Some(o))
            && (Truthy(o) ==> forall k' :: k' != k ==> Lookup(r.value.options, k') == Lookup(s.options, k'))
            && (!Truthy(o) ==> r.value.options == s.options)
            && r.value == s.(fields := r.value.fields, options := r.value.options))
  {
    var (n, t, o) := Unpack(name, typ);
    match StringOf(n)
    case None => Err(if Truthy(t) then IllegalOffset("field") else StringExpected("stripos"))
    case Some(_) =>
      var k := ToKey(n).value;
      var fields := Put(s.fields, k, StoredType(n, t));
      KeysAppend(s.fields, k, StoredType(n, t));
      Ok(s.(fields := fields, options := if Truthy(o) then Put(s.options, k, o) else s.options))
  }

  lemma KeysAppend(m: Entries, k: Key, v: Value)
    ensures Keys(m + [(k, v)]) == Keys(m) + [k]
    decreases |m|
  {
    if m != [] {
      assert (m + [(k, v)])[1..] == m[1..] + [(k, v)];
    }
  }

  function FieldRun(s: FormState, name: Value, typ: Value): Run<FormState, Effect> {
    match Field(s, name, typ)
    case Ok(s') => Done(s', [])
    case Err(f) => Stop(s, f)
  }

  /** The array key a `field` argument names once unpacked, or None when that name
      is an array or a closure and `field` throws. */
  function NameKey(v: Value): (k: Option<Key>)
    ensures k.None? <==> Field(FormState("", [], [], false, false, VNull, VNull, VNull, VNull), v, VNull).Err?
  {
    ToKey(Unpack(v, VNull).0)
  }

  /** `FormBuilder::fields(...$fields)`: `field` on each argument in turn, with no
      type, stopping at the first that throws. */
  function Fields(s: FormState, names: seq<Value>): (r: Run<FormState, Effect>)
    ensures r.effects == []
    ensures r.failure.None? <==> forall i :: 0 <= i < |names| ==> NameKey(names[i]).Some?
    ensures r.state == s.(fields := r.state.fields, options := r.state.options)
    decreases |names|
  {
    if names == [] then Done(s, [])
    else
      NameKeyDecides(s, names[0]);
      match Field(s, names[0], VNull)
      case Err(f) => Stop(s, f)
      case Ok(t) =>
        assert forall i :: 1 <= i < |names| ==> names[i] == names[1..][i - 1];
        Fields(t, names[1..])
  }

  /** Whether `field` throws depends on the name alone, not on the builder. */
  lemma NameKeyDecides(s: FormState, name: Value)
    ensures Field(s, name, VNull).Ok? <==> NameKey(name).Some?
    ensures Field(s, name, VNull).Ok? ==> Field(s, name, VNull).value == s.(fields := Field(s, name, VNull).value.fields, options := Field(s, name, VNull).value.options)
  {
  }

  /** `fields(a..., b)` is `fields(a...)` followed by `field(b)`: the names are
      applied left to right, and a name that throws stops the ones after it. */
  lemma {:induction false} FieldsSnoc(s: FormState, names: seq<Value>, last: Value)
    ensures Fields(s, names + [last]) == Seq(Fields(s, names), (t: FormState) => FieldRun(t, last, VNull))
    decreases |names|
  {
    if names == [] {
      assert [last][1..] == [];
      var r := FieldRun(s, last, VNull);
      assert r.effects == [];
    } else {
      assert (names + [last])[0] == names[0];
      assert (names + [last])[1..] == names[1..] + [last];
      match Field(s, names[0], VNull)
      case Err(f) =>
      case Ok(t) => FieldsSnoc(t, names[1..], last);
    }
  }

  /** One untyped `field` that completes: its name becomes a field, and every
      other entry stays as it was. */
  lemma FieldStep(s: FormState, name: Value)
    requires Field(s, name, VNull).Ok?
    ensures NameKey(name).Some?
    ensures var t := Field(s, name, VNull).value;
      && Lookup(t.fields, NameKey(name).value).Some?
      && (forall k :: k != NameKey(name).value ==> Lookup(t.fields, k) == Lookup(s.fields, k))
  {
  }

  lemma FieldStepOptions(s: FormState, name: Value)
    requires Field(s, name, VNull).Ok?
    ensures NameKey(name).Some?
    ensures var t := Field(s, name, VNull).value;
      forall k :: k != NameKey(name).value ==> Lookup(t.options, k) == Lookup(s.options, k)
  {
  }

  /** `fields(...)` keeps every field already there. */
  lemma {:induction false} FieldsKeep(s: FormState, names: seq<Value>, k: Key)
    requires Lookup(s.fields, k).Some?
    ensures Lookup(Fields(s, names).state.fields, k).Some?
    decreases |names|
  {
    if names != [] && Field(s, names[0], VNull).Ok? {
      var t := Field(s, names[0], VNull).value;
      FieldStep(s, names[0]);
      FieldsKeep(t, names[1..], k);
    }
  }

  /** After `fields(...)` completes, every name is a field. */
  lemma {:induction false} FieldsStore(s: FormState, names: seq<Value>)
    ensures var r := Fields(s, names);
      r.failure.None? ==> forall i :: 0 <= i < |names| ==> Lookup(r.state.fields, NameKey(names[i]).value).Some?
    decreases |names|
  {
    if names != [] && Field(s, names[0], VNull).Ok? {
      var t, rest := Field(s, names[0], VNull).value, names[1..];
      var r := Fields(s, names);
      assert r == Fields(t, rest);
      if r.failure.None? {
        FieldStep(s, names[0]);
        FieldsStore(t, rest);
        FieldsKeep(t, rest, NameKey(names[0]).value);
        forall i | 0 <= i < |names|
          ensures Lookup(r.state.fields, NameKey(names[i]).value).Some?
        {
          if i > 0 {
            assert rest[i - 1] == names[i];
          }
        }
      }
    }
  }

  /** `fields(...)` leaves alone every key none of its names gives, in the field
      map and in the option map. */
  lemma {:induction false} FieldsFrame(s: FormState, names: seq<Value>, k: Key)
    requires forall i :: 0 <= i < |names| ==> NameKey(names[i]) != Some(k)
    ensures Lookup(Fields(s, names).state.fields, k) == Lookup(s.fields, k)
    ensures Lookup(Fields(s, names).state.options, k) == Lookup(s.options, k)
    decreases |names|
  {
    if names != [] && Field(s, names[0], VNull).Ok? {
      var t := Field(s, names[0], VNull).value;
      FieldStep(s, names[0]);
      FieldStepOptions(s, names[0]);
      assert forall i :: 0 <= i < |names[1..]| ==> names[1..][i] == names[i + 1];
      FieldsFrame(t, names[1..], k);
    }
  }

  /** The field list a submission is sanitised against, and the one `render`
      draws: the builder's fields with `turnstile` and then `captcha` set when
      enabled. The builder's own field map is a separate value and stays as it is. */
  function Submitted(s: FormState): (r: Entries)
    ensures s.turnstile ==> Lookup(r, StrKey("turnstile")) == Some(VStr("turnstile"))
    ensures s.captcha ==> Lookup(r, StrKey("captcha")) == Some(VStr("captcha"))
    ensures forall k :: !(k == StrKey("turnstile") && s.turnstile) && !(k == StrKey("captcha") && s.captcha)
                        ==> Lookup(r, k) == Lookup(s.fields, k)
    ensures Lookup(s.fields, StrKey("turnstile")).None? && Lookup(s.fields, StrKey("captcha")).None?
            ==> r == s.fields
                   + (if s.turnstile then [(StrKey("turnstile"), VStr("turnstile"))] else [])
                   + (if s.captcha then [(StrKey("captcha"), VStr("captcha"))] else [])
  {
    var withTurnstile := if s.turnstile then Put(s.fields, StrKey("turnstile"), VStr("turnstile")) else s.fields;
    assert Lookup(s.fields, StrKey("captcha")).None? ==> Lookup(withTurnstile, StrKey("captcha")).None?;
    if s.captcha then Put(withTurnstile, StrKey("captcha"), VStr("captcha")) else withTurnstile
  }

  /** `FormBuilder::registerHandler()`: with a handler, one submission action per
      AJAX prefix, each capturing the current field list and messages. */
  function RegisterHandler(s: FormState): (r: seq<Effect>)
    ensures |r| == if Truthy(s.handler) || Truthy(s.email) then 2 else 0
    ensures forall e :: e in r ==>
      && e.FormSubmitAction? && e.fields == Submitted(s)
      && e.successMessage == s.successMessage && e.errorMessage == s.errorMessage
      && e.handler == (if Truthy(s.handler) then CustomHandler(s.handler) else MailToRecipient)

    ensures |r| == 2 ==> && r[0].hook == "wp_ajax_atom_form_" + s.slug + "_submit"
                         && r[1].hook == "wp_ajax_nopriv_atom_form_" + s.slug + "_submit"
  {
    var action := "atom_form_" + s.slug + "_submit";
    if Truthy(s.handler) || Truthy(s.email) then
      var h := if Truthy(s.handler) then CustomHandler(s.handler) else MailToRecipient;
      var fields := Submitted(s);
      assert "wp_ajax_" + action == "wp_ajax_atom_form_" + s.slug + "_submit";
      assert "wp_ajax_nopriv_" + action == "wp_ajax_nopriv_atom_form_" + s.slug + "_submit";
      [FormSubmitAction("wp_ajax_" + action, fields, h, s.successMessage, s.errorMessage),
       FormSubmitAction("wp_ajax_nopriv_" + action, fields, h, s.successMessage, s.errorMessage)]
    else []
  }

  /** The form builder's public methods; `render` and `__toString` only print markup. */
  datatype Verb =
    | FieldsVerb | FieldVerb | SuccessVerb | ErrorVerb | TurnstileVerb | CaptchaVerb
    | SendToVerb | OnSubmitVerb | ShortcodeVerb | MarkupVerb

  /** The method a call name selects, ignoring ASCII case as PHP does. */
  function VerbOf(name: string): Verb {
    var m := Lower(name);
    if m == "fields" then FieldsVerb
    else if m == "field" then FieldVerb
    else if m == "success" then SuccessVerb
    else if m == "error" then ErrorVerb
    else if m == "turnstile" then TurnstileVerb
    else if m == "captcha" then CaptchaVerb
    else if m == "sendto" then SendToVerb
    else if m == "onsubmit" then OnSubmitVerb
    else if m == "shortcode" then ShortcodeVerb
    else MarkupVerb
  }

  /** A call on a `FormBuilder`, as `call_user_func_array` performs it. `sendTo`
      and `onSubmit` change only their own property and register the submit
      actions again on every call that has a handler, each capturing the field list
      and messages of that moment. `shortcode` adds one shortcode and changes
      nothing; `turnstile` and `captcha` switch on the entries `Submitted` adds. */
  function Call(s: FormState, c: CallRecord): (r: Run<FormState, Effect>)
    ensures Admit(Methods, c.name, |c.args|).Some? ==>
      r.failure == Admit(Methods, c.name, |c.args|) && r.state == s && r.effects == []
    ensures Admit(Methods, c.name, |c.args|).None? && VerbOf(c.name) == ShortcodeVerb ==>
      r == Done(s, [AddShortcode(Arg(c.args, 0, VNull), s.slug)])
    ensures Admit(Methods, c.name, |c.args|).None? && VerbOf(c.name) == TurnstileVerb ==>
      && r.failure.None? && r.effects == [] && r.state == s.(turnstile := true)
      && Lookup(Submitted(r.state), StrKey("turnstile")) == Some(VStr("turnstile"))
    ensures Admit(Methods, c.name, |c.args|).None? && VerbOf(c.name) == CaptchaVerb ==>
      && r.failure.None? && r.effects == [] && r.state == s.(captcha := true)
      && Lookup(Submitted(r.state), StrKey("captcha")) == Some(VStr("captcha"))
    ensures Admit(Methods, c.name, |c.args|).None? && VerbOf(c.name) == SuccessVerb ==>
      r == Done(s.(successMessage := Arg(c.args, 0, VNull)), [])
    ensures Admit(Methods, c.name, |c.args|).None? && VerbOf(c.name) == ErrorVerb ==>
      r == Done(s.(errorMessage := Arg(c.args, 0, VNull)), [])
    ensures Admit(Methods, c.name, |c.args|).None? && VerbOf(c.name) == FieldVerb ==>
      var f := Field(s, Arg(c.args, 0, VNull), Arg(c.args, 1, VNull));
      && r.effects == []
      && (r.failure.None? <==> f.Ok?)
      && (r.failure.None? ==> r.state == f.value)
    ensures Admit(Methods, c.name, |c.args|).None? && VerbOf(c.name) == FieldsVerb ==>
      && r.effects == []
      && (r.failure.None? <==> forall i :: 0 <= i < |c.args| ==> NameKey(c.args[i]).Some?)
      && r == Fields(s, c.args)
    ensures Admit(Methods, c.name, |c.args|).None? && VerbOf(c.name) == MarkupVerb ==>
      r == Done(s, [])
    ensures Admit(Methods, c.name, |c.args|).None? && (VerbOf(c.name) == SendToVerb || VerbOf(c.name) == OnSubmitVerb) ==>
      && r.failure.None?
      && r.state.fields == s.fields && r.state.options == s.options
      && (VerbOf(c.name) == SendToVerb ==> r.state == s.(email := Arg(c.args, 0, VNull)))
      && (VerbOf(c.name) == OnSubmitVerb ==> r.state == s.(handler := Arg(c.args, 0, VNull)))
      && (Truthy(r.state.handler) || Truthy(r.state.email) <==> |r.effects| == 2)
      && (!(Truthy(r.state.handler) || Truthy(r.state.email)) ==> r.effects == [])
      && (forall e :: e in r.effects ==>
            && e.FormSubmitAction? && e.fields == Submitted(s)
            && e.successMessage == s.successMessage && e.errorMessage == s.errorMessage
            && e.handler == (if Truthy(r.state.handler) then CustomHandler(r.state.handler) else MailToRecipient))
  {
    match Admit(Methods, c.name, |c.args|)
    case Some(f) => Stop(s, f)
    case None =>
      var a := Arg(c.args, 0, VNull);
      match VerbOf(c.name)
      case FieldsVerb => Fields(s, c.args)
      case FieldVerb => FieldRun(s, a, Arg(c.args, 1, VNull))
      case SuccessVerb => Done(s.(successMessage := a), [])
      case ErrorVerb => Done(s.(errorMessage := a), [])
      case TurnstileVerb => Done(s.(turnstile := true), [])
      case CaptchaVerb => Done(s.(captcha := true), [])
      case SendToVerb => Done(s.(email := a), RegisterHandler(s.(email := a)))
      case OnSubmitVerb => Done(s.(handler := a), RegisterHandler(s.(handler := a)))
      case ShortcodeVerb => Done(s, [AddShortcode(a, s.slug)])
      case MarkupVerb => Done(s, [])
  }
}

=== FILE: hooks.dfy ===
/** Host side effects of the builders, recorded as events in the order the
    builders perform them. Each event stands for the WordPress registration call
    named in its comment; what the host later does with it is not modelled. */
module Hooks {
  import opened Php

  /** The submit handler a form registers: the user's callback, or the built-in
      mailer that reads the form's e-mail address when a request arrives. */
  datatype FormHandler = CustomHandler(callback: Value) | MailToRecipient

  datatype Effect =
      /** `add_shortcode($tag, ...)` rendering the form with this slug. */
    | AddShortcode(tag: Value, formSlug: string)
      /** `add_action($hook, ...)` for a form submission; the closure captures the
          field list, the handler and both messages as they are at this moment. */
    | FormSubmitAction(hook: string, fields: Entries, handler: FormHandler,
                       successMessage: Value, errorMessage: Value)
      /** `add_action('init', ...)` calling `register_post_type($slug, $args)`. */
    | RegisterPostTypeOnInit(slug: string, args: Entries)
      /** The same `add_action('init', ...)` in the corrected post-type builder: the
          callback builds the arguments, and adds the column hooks, from the builder
          as it is when `init` runs. */
    | RegisterPostTypeLive(slug: string)
      /** The column filter and column action of a post type with custom columns. */
    | CustomColumnHooks(slug: string)
      /** The sortable-columns filter at default priority. */
    | SortableColumnsFilter(slug: string)
      /** The sortable-columns filter at priority 20 that removes columns. */
    | NotSortableColumnsFilter(slug: string)
      /** `add_action('admin_menu', ...)` adding the settings page. */
    | SettingsMenuHook(slug: string)
      /** `add_action('admin_init', ...)` registering the settings fields. */
    | SettingsFieldsHook(slug: string)
      /** `add_action($hook, ...)` for an AJAX endpoint. */
    | AjaxAction(hook: string)
      /** `add_action('rest_api_init', ...)` registering `atom/v1` + route. */
    | RestRouteHook(route: string)
}

=== FILE: php.dfy ===
/** PHP values and ordered arrays, and the handful of PHP built-ins the builders
    rely on: truthiness, array-key normalisation, `stripos`, `ucfirst` and
    `array_merge`. */
module Php {

  datatype Option<T> = None | Some(value: T)

  /** Errors the PHP runtime throws inside the modelled code. Nothing in the
      modelled code catches them, so each one ends the replay that raised it. */
  datatype Failure =
    | ArgumentCount(name: string, given: nat, required: nat) // ArgumentCountError
    | IllegalOffset(name: string)    // TypeError: Illegal offset type
    | StringExpected(name: string)   // TypeError: a string parameter got an array or object
    | NotAccessible(name: string)    // a protected or private method called from outside
    | UndefinedMethod(name: string)  // Error: Call to undefined method
    | ArrayExpected(builtin: string)   // TypeError: an array parameter got something else

  datatype Result<T> = Ok(value: T) | Err(failure: Failure)

  /** An array key after PHP's key normalisation. */
  datatype Key = IntKey(i: int) | StrKey(s: string)

  /** A PHP value. `VClosure` stands for any callable object; only its identity matters. */
  datatype Value =
    | VNull
    | VBool(b: bool)
    | VInt(i: int)
    | VStr(s: string)
    | VArr(entries: seq<(Key, Value)>)
    | VClosure(id: nat)

  /** The entries of a PHP array in insertion order. */
  type Entries = seq<(Key, Value)>

  /** PHP's boolean conversion, used by `if ($x)`, `!empty($x)` and `?:`. */
  predicate Truthy(v: Value) {
    match v
    case VNull => false
    case VBool(b) => b
    case VInt(i) => i != 0
    case VStr(s) => s != "" && s != "0"
    case VArr(e) => e != []
    case VClosure(_) => true
  }

  // ---------------------------------------------------------------------------
  // Strings

  function LowerChar(c: char): char {
    if 'A' <= c <= 'Z' then (c as int + 32) as char else c
  }

  /** ASCII lower-casing, as PHP does for method names and for `stripos`. */
  function Lower(s: string): (r: string)
    ensures |r| == |s| && forall i :: 0 <= i < |s| ==> r[i] == LowerChar(s[i])
    decreases |s|
  {
    if s == [] then [] else [LowerChar(s[0])] + Lower(s[1..])
  }

  /** A name without capitals is its own lower-case form. */
  lemma LowerOfLowercase(s: string)
    requires forall i :: 0 <= i < |s| ==> !('A' <= s[i] <= 'Z')
    ensures Lower(s) == s
  {
  }

  /** The needle occurs at offset i of the haystack, ignoring ASCII case. */
  predicate MatchesAt(haystack: string, needle: string, i: int) {
    0 <= i && i + |needle| <= |haystack| && Lower(haystack[i..i + |needle|]) == Lower(needle)
  }

  function SearchFrom(haystack: string, needle: string, i: nat): (r: Option<nat>)
    ensures r.Some? ==> i <= r.value && MatchesAt(haystack, needle, r.value)
    ensures r.Some? ==> forall j :: i <= j < r.value ==> !MatchesAt(haystack, needle, j)
    ensures r.None? ==> forall j :: i <= j ==> !MatchesAt(haystack, needle, j)
    decreases |haystack| + 1 - i
  {
    if i + |needle| > |haystack| then None
    else if MatchesAt(haystack, needle, i) then Some(i)
    else SearchFrom(haystack, needle, i + 1)
  }

  /** PHP's `stripos`: the first offset at which the needle occurs, ignoring ASCII case. */
  function Stripos(haystack: string, needle: string): (r: Option<nat>)
    ensures r.Some? ==> MatchesAt(haystack, needle, r.value)
    ensures r.Some? ==> forall j :: 0 <= j < r.value ==> !MatchesAt(haystack, needle, j)
    ensures r.None? <==> forall j :: !MatchesAt(haystack, needle, j)
  {
    SearchFrom(haystack, needle, 0)
  }

  /** PHP's `ucfirst` (ASCII, as in PHP 8). */
  function Ucfirst(s: string): (r: string)
    ensures |r| == |s| && (s != [] ==> r[1..] == s[1..])
    ensures s != [] && 'a' <= s[0] <= 'z' ==> 'A' <= r[0] <= 'Z'
    ensures s != [] && !('a' <= s[0] <= 'z') ==> r == s
  {
    if s != [] && 'a' <= s[0] <= 'z' then [(s[0] as int - 32) as char] + s[1..] else s
  }

  // ---------------------------------------------------------------------------
  // Integers as decimal strings

  function DigitChar(d: int): char
    requires 0 <= d < 10
  {
    ('0' as int + d) as char
  }

  function Digits(n: nat): string
    decreases n
  {
    if n < 10 then [DigitChar(n)] else Digits(n / 10) + [DigitChar(n % 10)]
  }

  /** PHP's conversion of an integer to a string. */
  function Decimal(i: int): string {
    if i < 0 then "-" + Digits(-i) else Digits(i)
  }

  predicate AllDigits(s: string) {
    forall k :: 0 <= k < |s| ==> '0' <= s[k] <= '9'
  }

  /** Decimal digits without a superfluous leading zero. */
  predicate CanonicalNat(s: string) {
    |s| > 0 && AllDigits(s) && (s[0] == '0' ==> |s| == 1)
  }

  /** A string that PHP turns into an integer key ("5" and "-5", but not "05" or "-0"). */
  predicate CanonicalInt(s: string) {
    CanonicalNat(s) || (|s| >= 2 && s[0] == '-' && s[1] != '0' && CanonicalNat(s[1..]))
  }

  function ParseDigits(s: string): nat
    requires AllDigits(s)
    decreases |s|
  {
    if s == [] then 0 else ParseDigits(s[..|s| - 1]) * 10 + (s[|s| - 1] as int - '0' as int)
  }

  function ParseInt(s: string): int
    requires CanonicalInt(s)
  {
    if CanonicalNat(s) then ParseDigits(s) else -(ParseDigits(s[1..]) as int)
  }

  lemma {:induction false} DigitsRoundTrip(n: nat)
    ensures CanonicalNat(Digits(n))
    ensures n > 0 ==> Digits(n)[0] != '0'
    ensures ParseDigits(Digits(n)) == n
    decreases n
  {
    if n >= 10 {
      var p := Digits(n / 10);
      DigitsRoundTrip(n / 10);
      var s := p + [DigitChar(n % 10)];
      assert s[..|s| - 1] == p;
      assert s[0] == p[0];
    }
  }

  /** Rendering an integer in decimal and reading it back as an array key gives
      the same key as the integer: in PHP, `$a[5]` and `$a["5"]` are one entry. */
  lemma IntStringIsIntKey(i: int)
    ensures CanonicalInt(Decimal(i)) && ParseInt(Decimal(i)) == i
    ensures ToKey(VStr(Decimal(i))) == ToKey(VInt(i))
  {
    if i < 0 {
      DigitsRoundTrip(-i);
      var s := Decimal(i);
      assert s[1..] == Digits(-i);
      assert !CanonicalNat(s) by { assert s[0] == '-'; }
    } else {
      DigitsRoundTrip(i);
    }
  }

  // ---------------------------------------------------------------------------
  // Array keys

  /** The key PHP uses for `$a[$v]`, or None when PHP throws "Illegal offset type". */
  function ToKey(v: Value): (k: Option<Key>)
    ensures k.Some? <==> !(v.VArr? || v.VClosure?)
    ensures k.Some? ==> NormalKey(k.value)
  {
    match v
    case VNull => Some(StrKey(""))
    case VBool(b) => Some(IntKey(if b then 1 else 0))
    case VInt(i) => Some(IntKey(i))
    case VStr(s) => Some(if CanonicalInt(s) then IntKey(ParseInt(s)) else StrKey(s))
    case VArr(_) => None
    case VClosure(_) => None
  }

  /** A string that starts with neither a digit nor a minus sign stays a string key. */
  lemma WordKey(w: string)
    requires |w| > 0 && !('0' <= w[0] <= '9') && w[0] != '-'
    ensures ToKey(VStr(w)) == Some(StrKey(w))
  {
    assert !AllDigits(w) by { assert !('0' <= w[0] <= '9'); }
  }

  /** Keys PHP can hold: a string key never looks like an integer. */
  predicate NormalKey(k: Key) {
    k.StrKey? ==> !CanonicalInt(k.s)
  }

  /** A key as the value `array_keys` returns for it. */
  function KeyValue(k: Key): (v: Value)
    ensures NormalKey(k) ==> ToKey(v) == Some(k)
  {
    match k
    case IntKey(i) => VInt(i)
    case StrKey(s) => VStr(s)
  }

  /** The string PHP passes to a string parameter such as `stripos`'s haystack,
      or None when it throws a TypeError. */
  function StringOf(v: Value): (r: Option<string>)
    ensures r.Some? <==> ToKey(v).Some?
  {
    match v
    case VNull => Some("")
    case VBool(b) => Some(if b then "1" else "")
    case VInt(i) => Some(Decimal(i))
    case VStr(s) => Some(s)
    case VArr(_) => None
    case VClosure(_) => None
  }

  // ---------------------------------------------------------------------------
  // Ordered arrays

  function Lookup(m: Entries, k: Key): Option<Value>
    decreases |m|
  {
    if m == [] then None else if m[0].0 == k then Some(m[0].1) else Lookup(m[1..], k)
  }

  function Keys(m: Entries): seq<Key>
    decreases |m|
  {
    if m == [] then [] else [m[0].0] + Keys(m[1..])
  }

  /** What every PHP array satisfies: no key occurs twice. */
  predicate UniqueKeys(m: Entries)
    decreases |m|
  {
    m == [] || (Lookup(m[1..], m[0].0).None? && UniqueKeys(m[1..]))
  }

  /** `$a[$k] = $v`: overwrite the entry of k where it stands, or append a new one. */
  function Put(m: Entries, k: Key, v: Value): (r: Entries)
    ensures Lookup(r, k) == Some(v)
    ensures forall k' :: k' != k ==> Lookup(r, k') == Lookup(m, k')
    ensures Lookup(m, k).Some? ==> Keys(r) == Keys(m)
    ensures Lookup(m, k).None? ==> r == m + [(k, v)]
    ensures UniqueKeys(m) ==> UniqueKeys(r)
    decreases |m|
  {
    if m == [] then [(k, v)]
    else if m[0].0 == k then [(k, v)] + m[1..]
    else [m[0]] + Put(m[1..], k, v)
  }

  /** PHP list literal `[v0, v1, ...]`. */
  function ListOf(vs: seq<Value>): (r: Entries)
    ensures |r| == |vs|
    ensures forall i :: 0 <= i < |vs| ==> r[i] == (IntKey(i), vs[i])
  {
    seq(|vs|, i requires 0 <= i < |vs| => (IntKey(i), vs[i]))
  }

  /** `array_keys($m)`. */
  function KeyValues(m: Entries): (r: seq<Value>)
    ensures |r| == |m|
    ensures forall i :: 0 <= i < |m| ==> r[i] == KeyValue(m[i].0)
  {
    seq(|m|, i requires 0 <= i < |m| => KeyValue(m[i].0))
  }

  /** `$a[$k] ?? $default`: a missing entry and a null entry both give the default. */
  function Coalesce(m: Entries, k: Key, default: Value): Value {
    match Lookup(m, k)
    case Some(v) => if v == VNull then default else v
    case None => default
  }

  function CountIntKeys(m: Entries): nat
    decreases |m|
  {
    if m == [] then 0 else (if m[0].0.IntKey? then 1 else 0) + CountIntKeys(m[1..])
  }

  /** The loop inside `array_merge`: integer keys are renumbered from `next` and
      appended, string keys are assigned. */
  function MergeInto(acc: Entries, next: int, src: Entries): Entries
    decreases |src|
  {
    if src == [] then acc
    else if src[0].0.IntKey? then MergeInto(acc + [(IntKey(next), src[0].1)], next + 1, src[1..])
    else MergeInto(Put(acc, src[0].0, src[0].1), next, src[1..])
  }

  /** PHP's `array_merge($a, $b)`. The result is a well-formed array: the integer
      keys are renumbered past every one already taken, so no key occurs twice. */
  function ArrayMerge(a: Entries, b: Entries): (r: Entries)
    ensures UniqueKeys(r)
  {
    MergeIntoUnique([], 0, a);
    MergeIntoUnique(MergeInto([], 0, a), CountIntKeys(a), b);
    MergeInto(MergeInto([], 0, a), CountIntKeys(a), b)
  }

  /** The merge loop keeps keys unique, and takes no integer key past `next` plus
      the number of integer keys it renumbers. */
  lemma {:induction false} MergeIntoUnique(acc: Entries, next: int, src: Entries)
    requires UniqueKeys(acc)
    requires forall j :: j >= next ==> Lookup(acc, IntKey(j)).None?
    ensures UniqueKeys(MergeInto(acc, next, src))
    ensures forall j :: j >= next + CountIntKeys(src) ==> Lookup(MergeInto(acc, next, src), IntKey(j)).None?
    decreases |src|
  {
    if src != [] {
      var (k, v) := src[0];
      if k.IntKey? {
        var grown := Put(acc, IntKey(next), v);
        assert grown == acc + [(IntKey(next), v)];
        MergeIntoUnique(grown, next + 1, src[1..]);
      } else {
        MergeIntoUnique(Put(acc, k, v), next, src[1..]);
      }
    }
  }

  /** A key no entry carries is absent. */
  lemma {:induction false} LookupMissing(m: Entries, k: Key)
    requires forall i :: 0 <= i < |m| ==> m[i].0 != k
    ensures Lookup(m, k).None?
    decreases |m|
  {
    if m != [] {
      LookupMissing(m[1..], k);
    }
  }

  /** The first entry carrying a key is the one found. */
  lemma {:induction false} LookupFirst(m: Entries, k: Key, i: nat)
    requires i < |m| && m[i].0 == k
    requires forall j :: 0 <= j < i ==> m[j].0 != k
    ensures Lookup(m, k) == Some(m[i].1)
    decreases i
  {
    if i > 0 {
      LookupFirst(m[1..], k, i - 1);
    }
  }

  /** Pairwise distinct keys make a well-formed array. */
  lemma {:induction false} DistinctKeysUnique(m: Entries)
    requires forall i, j :: 0 <= i < j < |m| ==> m[i].0 != m[j].0
    ensures UniqueKeys(m)
    decreases |m|
  {
    if m != [] {
      LookupMissing(m[1..], m[0].0);
      DistinctKeysUnique(m[1..]);
    }
  }

  lemma LookupAppendOther(m: Entries, k: Key, k': Key, v: Value)
    requires k != k'
    ensures Lookup(m + [(k', v)], k) == Lookup(m, k)
    decreases |m|
  {
    if m != [] {
      assert (m + [(k', v)])[1..] == m[1..] + [(k', v)];
      LookupAppendOther(m[1..], k, k', v);
    }
  }

  lemma {:induction false} MergeIntoStringKey(acc: Entries, next: int, src: Entries, s: string)
    requires UniqueKeys(src)
    ensures Lookup(MergeInto(acc, next, src), StrKey(s))
         == (if Lookup(src, StrKey(s)).Some? then Lookup(src, StrKey(s)) else Lookup(acc, StrKey(s)))
    decreases |src|
  {
    if src != [] {
      var (k, v) := src[0];
      if k.IntKey? {
        LookupAppendOther(acc, StrKey(s), IntKey(next), v);
        MergeIntoStringKey(acc + [(IntKey(next), v)], next + 1, src[1..], s);
      } else {
        MergeIntoStringKey(Put(acc, k, v), next, src[1..], s);
      }
    }
  }

  /** `array_merge` on string keys: the second array's entry wins, and a key it
      lacks keeps the first array's entry. */
  lemma ArrayMergeStringKey(a: Entries, b: Entries, s: string)
    requires UniqueKeys(a) && UniqueKeys(b)
    ensures Lookup(ArrayMerge(a, b), StrKey(s))
         == (if Lookup(b, StrKey(s)).Some? then Lookup(b, StrKey(s)) else Lookup(a, StrKey(s)))
  {
    MergeIntoStringKey([], 0, a, s);
    MergeIntoStringKey(MergeInto([], 0, a), CountIntKeys(a), b, s);
  }

  /** `$m[$name] = $type` for a name given as a PHP value. */
  function SetEntry(m: Entries, name: Value, v: Value, caller: string): (r: Result<Entries>)
    ensures r.Err? <==> ToKey(name).None?
    ensures r.Ok? ==> r.value == Put(m, ToKey(name).value, v)
  {
    match ToKey(name)
    case None => Err(IllegalOffset(caller))
    case Some(k) => Ok(Put(m, k, v))
  }

  /** `Atom::sanitize_field($value, 'checkbox')`. */
  function SanitizeCheckbox(v: Value): (r: string)
    ensures r == "1" || r == "0"
    ensures r == "1" <==> Truthy(v)
    ensures Truthy(VStr(r)) <==> Truthy(v)  // so sanitising the result again changes nothing
  {
    if Truthy(v) then "1" else "0"
  }
}

=== FILE: post_type.dfy ===
/** `PostTypeBuilder`: every setter stores its value and then calls `register`,
    which does its work only the first time. As written, that first `register`
    captures the arguments by value, so later setters never reach the host; the
    corrected builder (`LiveCall`) registers from the builder as it is at `init`. */
module PostType {
  import opened Php
  import opened Calls
  import opened Hooks

  datatype PostTypeState = PostTypeState(
    slug: string,
    args: Entries,       // extra register_post_type arguments
    fields: Entries,     // field name -> type
    registered: bool,
    adminLabel: Value,
    menuPosition: Value,
    sortable: Value,
    notSortable: Value,
    columns: Entries)    // column key -> ['label' => ..., 'cb' => ...]

  /** `new PostTypeBuilder($slug)`. */
  function New(slug: string): (s: PostTypeState)
    ensures s.slug == slug && !s.registered && s.fields == [] && s.args == [] && s.columns == []
    ensures !Truthy(s.adminLabel) && !Truthy(s.menuPosition) && !Truthy(s.sortable) && !Truthy(s.notSortable)
  {
    PostTypeState(slug, [], [], false, VNull, VNull, VArr([]), VArr([]), [])
  }

  const Methods := Surface(
    map["fields" := 0, "field" := 1, "public" := 0, "icon" := 1, "onlyfor" := 1, "label" := 1,
        "menuposition" := 1, "sortable" := 1, "notsortable" := 1, "column" := 3],
    {"register"})

  predicate IsMethod(name: string) {
    Has(Methods, name)
  }

  /** The public methods that store one thing and then call `register`. */
  const Setters: set<string> :=
    {"field", "public", "icon", "onlyfor", "label", "menuposition", "sortable", "notsortable", "column"}

  /** The arguments `register` hands to `register_post_type`: a label and the
      field names as `supports`, overridden by the stored arguments, then the
      menu position when one is set. */
  function RegistrationArgs(s: PostTypeState): (r: Entries)
    ensures Truthy(s.menuPosition) ==> Lookup(r, StrKey("menu_position")) == Some(s.menuPosition)
    ensures UniqueKeys(s.args) && Lookup(s.args, StrKey("label")).None?
            ==> Lookup(r, StrKey("label")) == Some(if Truthy(s.adminLabel) then s.adminLabel else VStr(Ucfirst(s.slug)))
    ensures UniqueKeys(s.args) && Lookup(s.args, StrKey("supports")).None?
            ==> Lookup(r, StrKey("supports")) == Some(VArr(ListOf(KeyValues(s.fields))))
  {
    var title := if Truthy(s.adminLabel) then s.adminLabel else VStr(Ucfirst(s.slug));
    var base := [(StrKey("label"), title), (StrKey("supports"), VArr(ListOf(KeyValues(s.fields))))];
    var merged := ArrayMerge(base, s.args);
    assert UniqueKeys(s.args) ==> && (Lookup(s.args, StrKey("label")).None? ==> Lookup(merged, StrKey("label")) == Some(title))
                                  && (Lookup(s.args, StrKey("supports")).None?
                                      ==> Lookup(merged, StrKey("supports")) == Some(VArr(ListOf(KeyValues(s.fields))))) by {
      if UniqueKeys(s.args) {
        BaseUnique(title, VArr(ListOf(KeyValues(s.fields))));
        ArrayMergeStringKey(base, s.args, "label");
        ArrayMergeStringKey(base, s.args, "supports");
      }
    }
    if Truthy(s.menuPosition) then Put(merged, StrKey("menu_position"), s.menuPosition) else merged
  }

  lemma BaseUnique(title: Value, supports: Value)
    ensures UniqueKeys([(StrKey("label"), title), (StrKey("supports"), supports)])
  {
    var base := [(StrKey("label"), title), (StrKey("supports"), supports)];
    assert base[1..] == [(StrKey("supports"), supports)];
    assert Lookup(base[1..], StrKey("label")).None?;
  }

  /** The stored arguments override the defaults key by key; the menu position, when
      set, overrides both. */
  lemma RegistrationArgsLookup(s: PostTypeState, key: string)
    requires UniqueKeys(s.args)
    ensures key == "menu_position" && Truthy(s.menuPosition)
            ==> Lookup(RegistrationArgs(s), StrKey(key)) == Some(s.menuPosition)
    ensures !(key == "menu_position" && Truthy(s.menuPosition)) && Lookup(s.args, StrKey(key)).Some?
            ==> Lookup(RegistrationArgs(s), StrKey(key)) == Lookup(s.args, StrKey(key))
  {
    var title := if Truthy(s.adminLabel) then s.adminLabel else VStr(Ucfirst(s.slug));
    var base := [(StrKey("label"), title), (StrKey("supports"), VArr(ListOf(KeyValues(s.fields))))];
    BaseUnique(title, VArr(ListOf(KeyValues(s.fields))));
    ArrayMergeStringKey(base, s.args, key);
  }

  /** `PostTypeBuilder::register()` as written: the first call schedules the
      registration with the arguments as they are now, plus the column hooks that
      apply now; later calls return at once. */
  function Register(s: PostTypeState): (r: Run<PostTypeState, Effect>)
    ensures r.failure.None? && r.state.registered
    ensures s.registered ==> r.state == s && r.effects == []
    ensures !s.registered ==> (&& r.state == s.(registered := true)
                               && |r.effects| > 0
                               && r.effects[0] == RegisterPostTypeOnInit(s.slug, RegistrationArgs(s))
                               && Registrations(r.effects) == 1)
  {
    if s.registered then Done(s, [])
    else
      var hooks := ColumnHooks(s);
      NoRegistrations(hooks);
      assert ([RegisterPostTypeOnInit(s.slug, RegistrationArgs(s))] + hooks)[1..] == hooks;
      Done(s.(registered := true), [RegisterPostTypeOnInit(s.slug, RegistrationArgs(s))] + hooks)
  }

  /** The order in which `register` adds the column hooks. */
  function ColumnRank(e: Effect): nat {
    if e.CustomColumnHooks? then 0 else if e.SortableColumnsFilter? then 1 else 2
  }

  /** The column hooks `register` adds: the custom-column pair when there are custom
      columns, then the sortable filter when sortable columns are set, then the
      not-sortable filter when those are set. */
  function ColumnHooks(s: PostTypeState): (hooks: seq<Effect>)
    ensures forall e :: e in hooks ==>
      (e.CustomColumnHooks? || e.SortableColumnsFilter? || e.NotSortableColumnsFilter?) && e.slug == s.slug
    ensures CustomColumnHooks(s.slug) in hooks <==> s.columns != []
    ensures SortableColumnsFilter(s.slug) in hooks <==> Truthy(s.sortable)
    ensures NotSortableColumnsFilter(s.slug) in hooks <==> Truthy(s.notSortable)
    ensures forall i, j :: 0 <= i < j < |hooks| ==> ColumnRank(hooks[i]) < ColumnRank(hooks[j])
  {
    (if s.columns != [] then [CustomColumnHooks(s.slug)] else [])
    + (if Truthy(s.sortable) then [SortableColumnsFilter(s.slug)] else [])
    + (if Truthy(s.notSortable) then [NotSortableColumnsFilter(s.slug)] else [])
  }

  /** `register()` as the usage examples evidently intend it: the first call
      schedules one registration that is built from the builder when `init` runs,
      so every setter, before or after it, reaches the host. */
  function LiveRegister(s: PostTypeState): (r: Run<PostTypeState, Effect>)
    ensures r.failure.None? && r.state == s.(registered := true)
    ensures s.registered ==> r.effects == []
    ensures !s.registered ==> r.effects == [RegisterPostTypeLive(s.slug)] && Registrations(r.effects) == 1
  {
    if s.registered then Done(s, [])
    else
      assert [RegisterPostTypeLive(s.slug)][1..] == [];
      Done(s.(registered := true), [RegisterPostTypeLive(s.slug)])
  }

  /** `register`, as written (`live == false`) or corrected (`live == true`). */
  function Registered(live: bool, s: PostTypeState): Run<PostTypeState, Effect> {
    if live then LiveRegister(s) else Register(s)
  }

  lemma {:induction false} NoRegistrations(effects: seq<Effect>)
    requires forall e :: e in effects ==> !e.RegisterPostTypeOnInit? && !e.RegisterPostTypeLive?
    ensures Registrations(effects) == 0
    decreases |effects|
  {
    if effects != [] {
      assert effects[0] in effects;
      assert forall e :: e in effects[1..] ==> e in effects;
      NoRegistrations(effects[1..]);
    }
  }

  predicate IsRegistration(e: Effect) {
    e.RegisterPostTypeOnInit? || e.RegisterPostTypeLive?
  }

  /** How many `register_post_type` registrations a trace schedules. */
  function Registrations(effects: seq<Effect>): nat
    decreases |effects|
  {
    if effects == [] then 0
    else (if IsRegistration(effects[0]) then 1 else 0) + Registrations(effects[1..])
  }

  lemma RegistrationsConcat(a: seq<Effect>, b: seq<Effect>)
    ensures Registrations(a + b) == Registrations(a) + Registrations(b)
    decreases |a|
  {
    if a != [] {
      assert (a + b)[1..] == a[1..] + b;
    } else {
      assert a + b == b;
    }
  }

  /** The arguments `register_post_type` receives for each registration of a trace
      when `init` runs and the builder is `now`: a captured array as captured, a
      corrected registration as the builder then holds it. */
  function RegisteredArgs(effects: seq<Effect>, now: PostTypeState): seq<Entries>
    decreases |effects|
  {
    if effects == [] then []
    else
      (match effects[0]
       case RegisterPostTypeOnInit(_, args) => [args]
       case RegisterPostTypeLive(_) => [RegistrationArgs(now)]
       case _ => [])
      + RegisteredArgs(effects[1..], now)
  }

  /** The assignment `$this->fields[$name] = $type` that `field` makes, whether
      called directly, from `fields`, or replayed from a log. */
  function StoreField(s: PostTypeState, name: Value, typ: Value): Result<PostTypeState> {
    match SetEntry(s.fields, name, typ, "field")
    case Err(f) => Err(f)
    case Ok(fields) => Ok(s.(fields := fields))
  }

  /** `PostTypeBuilder::field($name, $type = 'text')`: the `field` store, then
      `register`. */
  function Field(live: bool, s: PostTypeState, name: Value, typ: Value): (r: Run<PostTypeState, Effect>)
    ensures r.failure.None? <==> ToKey(name).Some?
    ensures r.failure.Some? ==> r == Stop(s, IllegalOffset("field"))
    ensures r.failure.None? ==> r.state == s.(fields := Put(s.fields, ToKey(name).value, typ), registered := true)
    ensures RegistersOnce(s, r)
    ensures s.registered ==> r.effects == []
    ensures r.failure.None? && !live && !s.registered ==>
      |r.effects| > 0 && r.effects[0] == RegisterPostTypeOnInit(s.slug, RegistrationArgs(s.(fields := Put(s.fields, ToKey(name).value, typ))))
    ensures live ==> r.effects == if !s.registered && r.state.registered then [RegisterPostTypeLive(s.slug)] else []
  {
    match StoreField(s, name, typ)
    case Err(f) => Stop(s, f)
    case Ok(t) => Registered(live, t)
  }

  /** `PostTypeBuilder::fields(...$fields)`: `field` on each name in turn, stopping
      at the first that throws. Each name is stored as a `text` field; as written,
      the registration the first name triggers supports that name alone. */
  function Fields(live: bool, s: PostTypeState, names: seq<Value>): (r: Run<PostTypeState, Effect>)
    ensures RegistersOnce(s, r)
    ensures r.state.(fields := s.fields, registered := s.registered) == s
    ensures r.failure.None? <==> forall i :: 0 <= i < |names| ==> ToKey(names[i]).Some?
    ensures r.failure.Some? ==> r.failure == Some(IllegalOffset("field"))
    ensures s.registered ==> r.effects == []
    ensures !live && !s.registered && |names| > 0 && ToKey(names[0]).Some? ==>
      && |r.effects| > 0
      && r.effects[0] == RegisterPostTypeOnInit(s.slug, RegistrationArgs(s.(fields := Put(s.fields, ToKey(names[0]).value, VStr("text")))))
    ensures live ==> r.effects == if !s.registered && r.state.registered then [RegisterPostTypeLive(s.slug)] else []
    decreases |names|
  {
    if names == [] then Done(s, [])
    else
      var first := Field(live, s, names[0], VStr("text"));
      if first.failure.Some? then first
      else
        var rest := Fields(live, first.state, names[1..]);
        // the first field registers, so the rest schedule nothing
        assert first.state.registered && rest.effects == [];
        assert first.effects + rest.effects == first.effects;
        assert forall i :: 1 <= i < |names| ==> names[i] == names[1..][i - 1];
        Then(first.effects, rest)
  }

  /** A `text` field stays one through `fields(...)`. */
  lemma {:induction false} FieldsKeepText(live: bool, s: PostTypeState, names: seq<Value>, k: Key)
    requires Lookup(s.fields, k) == Some(VStr("text"))
    ensures Lookup(Fields(live, s, names).state.fields, k) == Some(VStr("text"))
    decreases |names|
  {
    if names != [] {
      var first := Field(live, s, names[0], VStr("text"));
      if first.failure.None? {
        FieldsKeepText(live, first.state, names[1..], k);
      }
    }
  }

  /** `fields(...)` leaves alone a key none of its names gives. */
  lemma {:induction false} FieldsFrame(live: bool, s: PostTypeState, names: seq<Value>, k: Key)
    requires forall i :: 0 <= i < |names| ==> ToKey(names[i]) != Some(k)
    ensures Lookup(Fields(live, s, names).state.fields, k) == Lookup(s.fields, k)
    decreases |names|
  {
    if names != [] {
      var first := Field(live, s, names[0], VStr("text"));
      if first.failure.None? {
        assert forall i :: 0 <= i < |names[1..]| ==> names[1..][i] == names[i + 1];
        FieldsFrame(live, first.state, names[1..], k);
      }
    }
  }

  /** `fields(...)` stores each name as a `text` field and leaves every other
      field as it was. */
  lemma {:induction false} FieldsStoreText(live: bool, s: PostTypeState, names: seq<Value>)
    ensures var r := Fields(live, s, names);
      && (r.failure.None? ==>
            forall i :: 0 <= i < |names| ==> Lookup(r.state.fields, ToKey(names[i]).value) == Some(VStr("text")))
      && (forall k :: (forall i :: 0 <= i < |names| ==> ToKey(names[i]) != Some(k))
                      ==> Lookup(r.state.fields, k) == Lookup(s.fields, k))
    decreases |names|
  {
    var r := Fields(live, s, names);
    forall k | forall i :: 0 <= i < |names| ==> ToKey(names[i]) != Some(k)
      ensures Lookup(r.state.fields, k) == Lookup(s.fields, k)
    {
      FieldsFrame(live, s, names, k);
    }
    if names != [] {
      var first := Field(live, s, names[0], VStr("text"));
      if first.failure.None? {
        var rest := names[1..];
        FieldsStoreText(live, first.state, rest);
        FieldsKeepText(live, first.state, rest, ToKey(names[0]).value);
        assert r.state == Fields(live, first.state, rest).state;
        forall i | 0 <= i < |names| && r.failure.None?
          ensures Lookup(r.state.fields, ToKey(names[i]).value) == Some(VStr("text"))
        {
          if i > 0 {
            assert rest[i - 1] == names[i];
          }
        }
      }
    }
  }

  /** The assignment each setter other than `fields` makes before it calls
      `register`. Only `field` and `column` can throw, on an illegal key. */
  function Store(s: PostTypeState, c: CallRecord): (r: Result<PostTypeState>)
    requires Lower(c.name) in Setters
    ensures r.Err? <==> (Lower(c.name) == "field" || Lower(c.name) == "column") && ToKey(Arg(c.args, 0, VNull)).None?
    ensures r.Err? ==> r.failure == IllegalOffset(Lower(c.name))
    ensures Lower(c.name) == "field" && r.Ok? ==>
      var k := ToKey(Arg(c.args, 0, VNull)).value;
      && Lookup(r.value.fields, k) == Some(Arg(c.args, 1, VStr("text")))
      && (forall k' :: k' != k ==> Lookup(r.value.fields, k') == Lookup(s.fields, k'))
      && r.value == s.(fields := r.value.fields)
    ensures Lower(c.name) == "column" && r.Ok? ==>
      var k := ToKey(Arg(c.args, 0, VNull)).value;
      && Lookup(r.value.columns, k) == Some(VArr([(StrKey("label"), Arg(c.args, 1, VNull)), (StrKey("cb"), Arg(c.args, 2, VNull))]))
      && (forall k' :: k' != k ==> Lookup(r.value.columns, k') == Lookup(s.columns, k'))
      && r.value == s.(columns := r.value.columns)
    ensures Lower(c.name) == "public" ==>
      && Lookup(r.value.args, StrKey("public")) == Some(Arg(c.args, 0, VBool(true)))
      && (forall k :: k != StrKey("public") ==> Lookup(r.value.args, k) == Lookup(s.args, k))
      && r.value == s.(args := r.value.args)
    ensures Lower(c.name) == "icon" ==>
      && Lookup(r.value.args, StrKey("menu_icon")) == Some(Arg(c.args, 0, VNull))
      && (forall k :: k != StrKey("menu_icon") ==> Lookup(r.value.args, k) == Lookup(s.args, k))
      && r.value == s.(args := r.value.args)
    ensures Lower(c.name) == "onlyfor" ==>
      && Lookup(r.value.args, StrKey("capability_type")) == Some(Arg(c.args, 0, VNull))
      && (forall k :: k != StrKey("capability_type") ==> Lookup(r.value.args, k) == Lookup(s.args, k))
      && r.value == s.(args := r.value.args)
    ensures Lower(c.name) == "label" ==> r == Ok(s.(adminLabel := Arg(c.args, 0, VNull)))
    ensures Lower(c.name) == "menuposition" ==> r == Ok(s.(menuPosition := Arg(c.args, 0, VNull)))
    ensures Lower(c.name) == "sortable" ==>
      && r.value == s.(sortable := r.value.sortable)
      && (Arg(c.args, 0, VNull).VArr? ==> r.value.sortable == Arg(c.args, 0, VNull))
      && (!Arg(c.args, 0, VNull).VArr? ==> !Truthy(r.value.sortable))
    ensures Lower(c.name) == "notsortable" ==>
      && r.value == s.(notSortable := r.value.notSortable)
      && (Arg(c.args, 0, VNull).VArr? ==> r.value.notSortable == Arg(c.args, 0, VNull))
      && (!Arg(c.args, 0, VNull).VArr? ==> r.value.notSortable == VArr([(IntKey(0), Arg(c.args, 0, VNull))]))
  {
    var m := Lower(c.name);
    var a := Arg(c.args, 0, VNull);
    if m == "field" then StoreField(s, a, Arg(c.args, 1, VStr("text")))
    else if m == "public" then Ok(s.(args := Put(s.args, StrKey("public"), Arg(c.args, 0, VBool(true)))))
    else if m == "icon" then Ok(s.(args := Put(s.args, StrKey("menu_icon"), a)))
    else if m == "onlyfor" then Ok(s.(args := Put(s.args, StrKey("capability_type"), a)))
    else if m == "label" then Ok(s.(adminLabel := a))
    else if m == "menuposition" then Ok(s.(menuPosition := a))
    else if m == "sortable" then Ok(s.(sortable := if a.VArr? then a else VArr([])))
    else if m == "notsortable" then
      assert ListOf([a]) == [(IntKey(0), a)];
      Ok(s.(notSortable := if a.VArr? then a else VArr(ListOf([a]))))
    else
      var column := VArr([(StrKey("label"), Arg(c.args, 1, VNull)), (StrKey("cb"), Arg(c.args, 2, VNull))]);
      match SetEntry(s.columns, a, column, "column")
      case Err(f) => Err(f)
      case Ok(columns) => Ok(s.(columns := columns))
  }

  /** A call on a `PostTypeBuilder`, as `call_user_func_array` performs it, with the
      as-written or the corrected `register`. A refused call changes nothing; a
      setter stores what `Store` says and sets the flag; no call schedules a
      second registration. */
  function Dispatch(live: bool, s: PostTypeState, c: CallRecord): (r: Run<PostTypeState, Effect>)
    ensures RegistersOnce(s, r)
    ensures Admit(Methods, c.name, |c.args|).Some? ==>
      r.failure == Admit(Methods, c.name, |c.args|) && r.state == s && r.effects == []
    ensures Admit(Methods, c.name, |c.args|).None? && Lower(c.name) != "fields" ==>
      && (r.failure.None? <==> Store(s, c).Ok?)
      && (r.failure.None? ==> r.state == Store(s, c).value.(registered := true))
      && (r.failure.Some? ==> r.state == s && r.effects == [])
    ensures Admit(Methods, c.name, |c.args|).None? && Lower(c.name) == "fields" ==> r == Fields(live, s, c.args)
    ensures s.registered ==> r.effects == []
  {
    match Admit(Methods, c.name, |c.args|)
    case Some(f) => Stop(s, f)
    case None =>
      if Lower(c.name) == "fields" then Fields(live, s, c.args)
      else
        match Store(s, c)
        case Err(f) => Stop(s, f)
        case Ok(t) => Registered(live, t)
  }

  /** A call on the `PostTypeBuilder` as written. The first setter on a fresh
      builder schedules the registration with the state that setter produced, and
      the column hooks that state asks for; on a registered builder a setter only
      stores its value. */
  function Call(s: PostTypeState, c: CallRecord): (r: Run<PostTypeState, Effect>)
    ensures RegistersOnce(s, r)
    ensures Admit(Methods, c.name, |c.args|).None? && Lower(c.name) != "fields" && Store(s, c).Ok? ==>
      && r.failure.None? && r.state == Store(s, c).value.(registered := true)
      && (!s.registered ==> r.effects == [RegisterPostTypeOnInit(s.slug, RegistrationArgs(Store(s, c).value))]
                                         + ColumnHooks(Store(s, c).value))
    ensures Lower(c.name) == "fields" && !s.registered && |c.args| > 0 && ToKey(c.args[0]).Some? ==>
      && |r.effects| > 0
      && r.effects[0] == RegisterPostTypeOnInit(s.slug, RegistrationArgs(s.(fields := Put(s.fields, ToKey(c.args[0]).value, VStr("text")))))
    ensures Admit(Methods, c.name, |c.args|).None? && Lower(c.name) == "fields" ==> r == Fields(false, s, c.args)
    ensures s.registered ==> r.effects == []
  {
    Dispatch(false, s, c)
  }

  /** A call on the corrected `PostTypeBuilder`: the same assignments and errors,
      and the one registration it schedules reads the builder when `init` runs. */
  function LiveCall(s: PostTypeState, c: CallRecord): (r: Run<PostTypeState, Effect>)
    ensures RegistersOnce(s, r)
    ensures Admit(Methods, c.name, |c.args|).Some? ==>
      r.failure == Admit(Methods, c.name, |c.args|) && r.state == s && r.effects == []
    ensures Admit(Methods, c.name, |c.args|).None? && Lower(c.name) != "fields" && Store(s, c).Ok? ==>
      r.failure.None? && r.state == Store(s, c).value.(registered := true)
    ensures Admit(Methods, c.name, |c.args|).None? && Lower(c.name) != "fields" && Store(s, c).Err? ==>
      r.failure == Some(Store(s, c).failure) && r.state == s
    ensures Admit(Methods, c.name, |c.args|).None? && Lower(c.name) == "fields" ==> r == Fields(true, s, c.args)
    ensures r.effects == if !s.registered && r.state.registered then [RegisterPostTypeLive(s.slug)] else []
  {
    Dispatch(true, s, c)
  }

  /** `fields(...)` stores the same fields and throws the same error on the
      corrected builder as on the builder as written. */
  lemma {:induction false} FieldsAgree(s: PostTypeState, names: seq<Value>)
    ensures Fields(true, s, names).state == Fields(false, s, names).state
    ensures Fields(true, s, names).failure == Fields(false, s, names).failure
    decreases |names|
  {
    if names != [] {
      var live, written := Field(true, s, names[0], VStr("text")), Field(false, s, names[0], VStr("text"));
      assert live.state == written.state && live.failure == written.failure;
      if live.failure.None? {
        FieldsAgree(live.state, names[1..]);
      }
    }
  }

  /** The correction touches only the registration effect: every call leaves the
      corrected builder in the same state, with the same error, as the builder as
      written. */
  lemma LiveAndWrittenAgree(s: PostTypeState, c: CallRecord)
    ensures LiveCall(s, c).state == Call(s, c).state
    ensures LiveCall(s, c).failure == Call(s, c).failure
  {
    FieldsAgree(s, c.args);
  }

  /** The `registered` flag never goes back, and it counts the registrations: a
      run schedules one exactly when it sets the flag, and none once it is set. */
  predicate RegistersOnce(s: PostTypeState, r: Run<PostTypeState, Effect>) {
    && (s.registered ==> r.state.registered)
    && Registrations(r.effects) == (if !s.registered && r.state.registered then 1 else 0)
  }

  /** However many setters a replay applies, `register_post_type` is scheduled at
      most once, and never again once the builder has registered. */
  lemma {:induction false} ReplayRegistersAtMostOnce(s: PostTypeState, log: seq<CallRecord>)
    ensures RegistersOnce(s, Replay(s, log, IsMethod, Call))
    decreases |log|
  {
    if log != [] {
      if IsMethod(log[0].name) {
        var r := Call(s, log[0]);
        if r.failure.None? {
          ReplayRegistersAtMostOnce(r.state, log[1..]);
          RegistrationsConcat(r.effects, Replay(r.state, log[1..], IsMethod, Call).effects);
        }
      } else {
        ReplayRegistersAtMostOnce(s, log[1..]);
      }
    }
  }

  /** The corrected builder's replay schedules at most one registration, and that
      registration hands `register_post_type` the arguments of the builder as the
      replay left it: every replayed setter reaches the host. */
  lemma {:induction false} LiveReplayRegistersFinalState(s: PostTypeState, log: seq<CallRecord>)
    ensures var r := Replay(s, log, IsMethod, LiveCall);
      && (s.registered ==> r.state.registered)
      && r.effects == (if !s.registered && r.state.registered then [RegisterPostTypeLive(s.slug)] else [])
      && RegisteredArgs(r.effects, r.state) == (if !s.registered && r.state.registered then [RegistrationArgs(r.state)] else [])
    decreases |log|
  {
    var r := Replay(s, log, IsMethod, LiveCall);
    if log != [] {
      if IsMethod(log[0].name) {
        var first := LiveCall(s, log[0]);
        if first.failure.None? {
          LiveReplayRegistersFinalState(first.state, log[1..]);
          var rest := Replay(first.state, log[1..], IsMethod, LiveCall);
          assert r.effects == first.effects + rest.effects;
          assert first.effects == [] || rest.effects == [];
          assert first.effects + [] == first.effects;
        }
      } else {
        LiveReplayRegistersFinalState(s, log[1..]);
      }
    }
    assert [RegisterPostTypeLive(s.slug)][1..] == [];
  }

  // ---------------------------------------------------------------------------
  // `Atom::postType('book')->fields('title', 'author')->public()`

  function BookChain(): seq<CallRecord> {
    [CallRecord("fields", [VStr("title"), VStr("author")]), CallRecord("public", [])]
  }

  /** The state after `fields('title', 'author')`, before any flag is set. */
  function BookFields(): Entries {
    [(StrKey("title"), VStr("text")), (StrKey("author"), VStr("text"))]
  }

  lemma BookKeys()
    ensures ToKey(VStr("title")) == Some(StrKey("title")) && ToKey(VStr("author")) == Some(StrKey("author"))
    ensures Lower("fields") == "fields" && Lower("public") == "public"
    ensures Put(Put([], StrKey("title"), VStr("text")), StrKey("author"), VStr("text")) == BookFields()
  {
    WordKey("title");
    WordKey("author");
    LowerOfLowercase("fields");
    LowerOfLowercase("public");
    BookPut();
  }

  lemma BookPut()
    ensures Put(Put([], StrKey("title"), VStr("text")), StrKey("author"), VStr("text")) == BookFields()
  {
    var one := [(StrKey("title"), VStr("text"))];
    assert Put([], StrKey("title"), VStr("text")) == one;
    assert StrKey("title") != StrKey("author");
    assert Put(one, StrKey("author"), VStr("text")) == [one[0]] + Put([], StrKey("author"), VStr("text"));
  }

  /** The registration arguments of the book post type, holding the given fields
      and arguments: the label `Book`, then `supports`, then the arguments. */
  lemma BookArgs(t: PostTypeState, supports: Entries)
    requires t.slug == "book" && !Truthy(t.adminLabel) && !Truthy(t.menuPosition)
    requires t.args == [] && ListOf(KeyValues(t.fields)) == supports
    ensures RegistrationArgs(t) == [(StrKey("label"), VStr("Book")), (StrKey("supports"), VArr(supports))]
  {
    assert Ucfirst("book") == "Book";
    var base := [(StrKey("label"), VStr("Book")), (StrKey("supports"), VArr(supports))];
    var one := [(StrKey("label"), VStr("Book"))];
    assert Put([], StrKey("label"), VStr("Book")) == one;
    assert Put(one, StrKey("supports"), VArr(supports)) == [one[0]] + Put([], StrKey("supports"), VArr(supports));
    assert Put(one, StrKey("supports"), VArr(supports)) == base;
    assert base[1..][1..] == [];
    assert MergeInto(one, 0, base[1..]) == MergeInto(base, 0, []);
    assert MergeInto([], 0, base) == base;
    assert ArrayMerge(base, []) == base;
  }

  /** The first field of the book chain: stored, then `register`. */
  lemma BookTitleField(live: bool)
    ensures Field(live, New("book"), VStr("title"), VStr("text"))
         == Registered(live, New("book").(fields := [(StrKey("title"), VStr("text"))]))
  {
    BookKeys();
  }

  /** The second field: stored on the registered builder, nothing scheduled. */
  lemma BookAuthorField(live: bool)
    ensures Field(live, New("book").(fields := [(StrKey("title"), VStr("text"))], registered := true), VStr("author"), VStr("text"))
         == Done(New("book").(fields := BookFields(), registered := true), [])
  {
    BookKeys();
  }

  /** The registration `register` schedules for the book builder holding `title`. */
  lemma BookTitleRegister()
    ensures Register(New("book").(fields := [(StrKey("title"), VStr("text"))])).effects
         == [RegisterPostTypeOnInit("book", [(StrKey("label"), VStr("Book")),
                                             (StrKey("supports"), VArr([(IntKey(0), VStr("title"))]))])]
  {
    var s1 := New("book").(fields := [(StrKey("title"), VStr("text"))]);
    assert KeyValues(s1.fields) == [VStr("title")];
    BookArgs(s1, [(IntKey(0), VStr("title"))]);
    assert ColumnHooks(s1) == [];
  }

  lemma BookDispatchFields(live: bool)
    ensures Dispatch(live, New("book"), BookChain()[0]) == Fields(live, New("book"), [VStr("title"), VStr("author")])
  {
    var c := BookChain()[0];
    assert c == CallRecord("fields", [VStr("title"), VStr("author")]);
    LowerOfLowercase("fields");
    assert "fields" in Methods.public && Methods.public["fields"] == 0;
    assert Admit(Methods, "fields", 2) == None;
  }

  lemma BookFieldsRun(live: bool)
    ensures Fields(live, New("book"), [VStr("title"), VStr("author")])
         == Then(Field(live, New("book"), VStr("title"), VStr("text")).effects,
                 Done(New("book").(fields := BookFields(), registered := true), []))
  {
    var names := [VStr("title"), VStr("author")];
    BookTitleField(live);
    BookAuthorField(live);
    assert names[1..][1..] == [];
    var f0 := Field(live, New("book"), names[0], VStr("text"));
    assert f0.failure.None? && f0.state == New("book").(fields := [(StrKey("title"), VStr("text"))], registered := true);
    assert Fields(live, f0.state, names[1..]) == Done(New("book").(fields := BookFields(), registered := true), []);
  }

  /** `fields('title', 'author')` on a fresh book builder: both fields stored,
      registered at `field('title')`. */
  lemma BookFieldsCall(live: bool)
    ensures var r := Dispatch(live, New("book"), BookChain()[0]);
      && r.failure.None?
      && r.state == New("book").(fields := BookFields(), registered := true)
      && r.effects == if live then [RegisterPostTypeLive("book")]
                      else [RegisterPostTypeOnInit("book", [(StrKey("label"), VStr("Book")),
                                                            (StrKey("supports"), VArr([(IntKey(0), VStr("title"))]))])]
  {
    BookDispatchFields(live);
    BookFieldsRun(live);
    BookTitleField(live);
    BookTitleRegister();
    var e := Field(live, New("book"), VStr("title"), VStr("text")).effects;
    assert e + [] == e;
  }

  /** `public()` on the book builder once it is registered: stored, nothing scheduled. */
  lemma BookPublicCall(live: bool)
    ensures var t := New("book").(fields := BookFields(), registered := true);
      Dispatch(live, t, BookChain()[1]) == Done(t.(args := [(StrKey("public"), VBool(true))]), [])
  {
    var c := BookChain()[1];
    assert c == CallRecord("public", []);
    LowerOfLowercase("public");
    assert "public" in Methods.public && Methods.public["public"] == 0;
    assert Admit(Methods, "public", 0) == None;
  }

  /** The replay of the book chain, with either `register`. */
  lemma BookReplay(live: bool)
    ensures var t := New("book").(fields := BookFields(), registered := true, args := [(StrKey("public"), VBool(true))]);
      Replay(New("book"), BookChain(), IsMethod, if live then LiveCall else Call)
      == Done(t, Dispatch(live, New("book"), BookChain()[0]).effects)
  {
    BookKeys();
    BookFieldsCall(live);
    BookPublicCall(live);
    var c0, c1 := BookChain()[0], BookChain()[1];
    assert BookChain() == [c0, c1];
    assert IsMethod(c0.name) && IsMethod(c1.name);
    var r0 := Dispatch(live, New("book"), c0);
    var e := r0.effects;
    assert e + [] == e;
    if live {
      assert LiveCall(New("book"), c0) == r0;
      assert LiveCall(r0.state, c1) == Dispatch(live, r0.state, c1);
      ReplayPair(New("book"), c0, c1, IsMethod, LiveCall);
    } else {
      assert Call(New("book"), c0) == r0;
      assert Call(r0.state, c1) == Dispatch(live, r0.state, c1);
      ReplayPair(New("book"), c0, c1, IsMethod, Call);
    }
  }

  /** As written: the chain leaves a public builder with both fields, but the one
      registration was captured at `field('title')`, so `register_post_type`
      receives the default label and the first field only, and not `public`. */
  lemma SnapshotDropsLaterSetters()
    ensures var r := Replay(New("book"), BookChain(), IsMethod, Call);
      && r.failure.None?
      && r.effects == [RegisterPostTypeOnInit("book", [(StrKey("label"), VStr("Book")),
                                                       (StrKey("supports"), VArr([(IntKey(0), VStr("title"))]))])]
      && Lookup(r.state.args, StrKey("public")) == Some(VBool(true))
      && r.state.fields == BookFields()
  {
    BookReplay(false);
    BookFieldsCall(false);
  }

  /** Corrected: the same chain schedules one registration, and when `init` runs
      it hands `register_post_type` both fields and `public`. */
  lemma LiveBookChain()
    ensures var r := Replay(New("book"), BookChain(), IsMethod, LiveCall);
      && r.failure.None?
      && r.effects == [RegisterPostTypeLive("book")]
      && RegisteredArgs(r.effects, r.state)
         == [[(StrKey("label"), VStr("Book")),
              (StrKey("supports"), VArr([(IntKey(0), VStr("title")), (IntKey(1), VStr("author"))])),
              (StrKey("public"), VBool(true))]]
  {
    var t := New("book").(fields := BookFields(), registered := true, args := [(StrKey("public"), VBool(true))]);
    var r := Replay(New("book"), BookChain(), IsMethod, LiveCall);
    BookReplay(true);
    BookFieldsCall(true);
    assert r == Done(t, [RegisterPostTypeLive("book")]);
    RegisteredArgsLive("book", t);
    BookFinalArgs();
  }

  lemma RegisteredArgsLive(slug: string, now: PostTypeState)
    ensures RegisteredArgs([RegisterPostTypeLive(slug)], now) == [RegistrationArgs(now)]
  {
    assert [RegisterPostTypeLive(slug)][1..] == [];
  }

  /** The arguments the finished book builder describes. */
  lemma BookFinalArgs()
    ensures RegistrationArgs(New("book").(fields := BookFields(), registered := true, args := [(StrKey("public"), VBool(true))]))
         == [(StrKey("label"), VStr("Book")),
             (StrKey("supports"), VArr([(IntKey(0), VStr("title")), (IntKey(1), VStr("author"))])),
             (StrKey("public"), VBool(true))]
  {
    var t := New("book").(fields := BookFields(), registered := true, args := [(StrKey("public"), VBool(true))]);
    var supports := [(IntKey(0), VStr("title")), (IntKey(1), VStr("author"))];
    assert KeyValues(BookFields()) == [VStr("title"), VStr("author")];
    var base := [(StrKey("label"), VStr("Book")), (StrKey("supports"), VArr(supports))];
    BookArgs(t.(args := []), supports);
    assert base[1..][1..] == [];
    assert CountIntKeys(base[1..][1..]) == 0;
    assert CountIntKeys(base[1..]) == 0;
    assert CountIntKeys(base) == 0;
    assert MergeInto([], 0, base) == base;
    LookupMissing(base, StrKey("public"));
    assert MergeInto(base, 0, t.args) == MergeInto(Put(base, StrKey("public"), VBool(true)), 0, []);
  }
}

=== FILE: settings.dfy ===
/** `SettingsBuilder`: fields, a capability and menu options; `register` adds the
    page's two host hooks once, and those hooks read the builder when they run. */
module Settings {
  import opened Php
  import opened Calls
  import opened Hooks

  datatype SettingsState = SettingsState(
    slug: string,
    fields: Entries,     // field name -> type
    options: Entries,    // field name -> options array
    role: Value,
    registered: bool,
    menuOptions: Value)

  /** `new SettingsBuilder($slug)`. */
  function New(slug: string): (s: SettingsState)
    ensures s.slug == slug && !s.registered && s.fields == [] && s.menuOptions == VArr([])
  {
    SettingsState(slug, [], [], VNull, false, VArr([]))
  }

  const Methods := Surface(
    map["field" := 1, "onlyfor" := 1, "menu" := 1, "render" := 0],
    {"register"})

  predicate IsMethod(name: string) {
    Has(Methods, name)
  }

  /** `SettingsBuilder::register()`: the menu hook and the fields hook, the first
      time only. */
  function Register(s: SettingsState): (r: Run<SettingsState, Effect>)
    ensures r.failure.None? && r.state == s.(registered := true)
    ensures s.registered ==> r.effects == []
    ensures !s.registered ==> r.effects == [SettingsMenuHook(s.slug), SettingsFieldsHook(s.slug)]
  {
    if s.registered then Done(s, [])
    else Done(s.(registered := true), [SettingsMenuHook(s.slug), SettingsFieldsHook(s.slug)])
  }

  /** A call on a `SettingsBuilder`, as `call_user_func_array` performs it. A
      refused call changes nothing. `field` stores its type (default `text`) under
      the name, and its options when they are non-empty; `onlyFor` stores the role
      and `menu` the menu options; each then registers. `render` changes nothing. */
  function Call(s: SettingsState, c: CallRecord): (r: Run<SettingsState, Effect>)
    ensures Admit(Methods, c.name, |c.args|).Some? ==>
      r.failure == Admit(Methods, c.name, |c.args|) && r.state == s && r.effects == []
    ensures Admit(Methods, c.name, |c.args|).None? && Lower(c.name) == "field" ==>
      && (r.failure.None? <==> ToKey(c.args[0]).Some?)
      && (r.failure.Some? ==> r.failure == Some(IllegalOffset("field")) && r.state == s && r.effects == [])
      && (r.failure.None? ==>
            var k := ToKey(c.args[0]).value;
            var opts := Arg(c.args, 2, VArr([]));
            && Lookup(r.state.fields, k) == Some(Arg(c.args, 1, VStr("text")))
            && (forall k' :: k' != k ==> Lookup(r.state.fields, k') == Lookup(s.fields, k'))
            && (Truthy(opts) ==> Lookup(r.state.options, k) == Some(opts))
            && (Truthy(opts) ==> forall k' :: k' != k ==> Lookup(r.state.options, k') == Lookup(s.options, k'))
            && (!Truthy(opts) ==> r.state.options == s.options)
            && r.state == s.(fields := r.state.fields, options := r.state.options, registered := true))
    ensures Admit(Methods, c.name, |c.args|).None? && Lower(c.name) == "onlyfor" ==>
      r.failure.None? && r.state == s.(role := c.args[0], registered := true)
    ensures Admit(Methods, c.name, |c.args|).None? && Lower(c.name) == "menu" ==>
      r.failure.None? && r.state == s.(menuOptions := c.args[0], registered := true)
    ensures Admit(Methods, c.name, |c.args|).None? && Lower(c.name) != "render" && r.failure.None? ==>
      r.effects == if s.registered then [] else [SettingsMenuHook(s.slug), SettingsFieldsHook(s.slug)]
    ensures Admit(Methods, c.name, |c.args|).None? && Lower(c.name) == "render" ==> r == Done(s, [])
  {
    match Admit(Methods, c.name, |c.args|)
    case Some(f) => Stop(s, f)
    case None =>
      var m := Lower(c.name);
      var a := Arg(c.args, 0, VNull);
      if m == "field" then
        var opts := Arg(c.args, 2, VArr([]));
        (match SetEntry(s.fields, a, Arg(c.args, 1, VStr("text")), "field")
         case Err(f) => Stop(s, f)
         case Ok(fields) =>
           var k := ToKey(a).value;
           Register(s.(fields := fields, options := if Truthy(opts) then Put(s.options, k, opts) else s.options)))
      else if m == "onlyfor" then Register(s.(role := a))
      else if m == "menu" then Register(s.(menuOptions := a))
      else Done(s, []) // render: markup only
  }

  /** How many times a trace adds the settings page's menu hook. */
  function MenuHooks(effects: seq<Effect>): nat
    decreases |effects|
  {
    if effects == [] then 0
    else (if effects[0].SettingsMenuHook? then 1 else 0) + MenuHooks(effects[1..])
  }

  lemma MenuHooksConcat(a: seq<Effect>, b: seq<Effect>)
    ensures MenuHooks(a + b) == MenuHooks(a) + MenuHooks(b)
    decreases |a|
  {
    if a != [] {
      assert (a + b)[1..] == a[1..] + b;
    } else {
      assert a + b == b;
    }
  }

  /** However many setters a replay applies, the page hooks are added at most
      once, and never again once the builder has registered. */
  lemma {:induction false} ReplayRegistersAtMostOnce(s: SettingsState, log: seq<CallRecord>)
    ensures var r := Replay(s, log, IsMethod, Call);
      && (s.registered ==> r.state.registered)
      && MenuHooks(r.effects) == (if !s.registered && r.state.registered then 1 else 0)
    decreases |log|
  {
    if log != [] {
      if IsMethod(log[0].name) {
        var r := Call(s, log[0]);
        if r.failure.None? {
          ReplayRegistersAtMostOnce(r.state, log[1..]);
          MenuHooksConcat(r.effects, Replay(r.state, log[1..], IsMethod, Call).effects);
        }
      } else {
        ReplayRegistersAtMostOnce(s, log[1..]);
      }
    }
  }

  /** The defaults of the settings page's menu entry: under the general options
      page, titled with the capitalised slug, with the page's role as capability or
      `manage_options` when it has none. */
  function MenuDefaults(s: SettingsState): (r: Entries)
    ensures Lookup(r, StrKey("parent")) == Some(VStr("options-general.php"))
    ensures Lookup(r, StrKey("title")) == Some(VStr(Ucfirst(s.slug)))
    ensures Lookup(r, StrKey("menu")) == Some(VStr(Ucfirst(s.slug)))
    ensures Lookup(r, StrKey("position")) == Some(VNull) && Lookup(r, StrKey("icon")) == Some(VNull)
    ensures Lookup(r, StrKey("capability")) == Some(if Truthy(s.role) then s.role else VStr("manage_options"))
  {
    var r := [(StrKey("parent"), VStr("options-general.php")),
              (StrKey("title"), VStr(Ucfirst(s.slug))),
              (StrKey("menu"), VStr(Ucfirst(s.slug))),
              (StrKey("position"), VNull),
              (StrKey("icon"), VNull),
              (StrKey("capability"), if Truthy(s.role) then s.role else VStr("manage_options"))];
    LookupFirst(r, StrKey("parent"), 0);
    LookupFirst(r, StrKey("title"), 1);
    LookupFirst(r, StrKey("menu"), 2);
    LookupFirst(r, StrKey("position"), 3);
    LookupFirst(r, StrKey("icon"), 4);
    LookupFirst(r, StrKey("capability"), 5);
    r
  }

  /** The `array_merge` in the menu hook: the defaults overridden by the options
      given to `menu`, read when the hook runs. */
  function MenuOptions(s: SettingsState): (r: Result<Entries>)
    ensures r.Err? <==> !s.menuOptions.VArr?
  {
    match s.menuOptions
    case VArr(user) => Ok(ArrayMerge(MenuDefaults(s), user))
    case _ => Err(ArrayExpected("array_merge"))
  }

  lemma MenuDefaultsUnique(s: SettingsState)
    ensures UniqueKeys(MenuDefaults(s))
  {
    DistinctKeysUnique(MenuDefaults(s));
  }

  /** Every option the user gives wins over its default; every option the user
      leaves out keeps its default. */
  lemma MenuOptionsMerge(s: SettingsState, key: string)
    requires s.menuOptions.VArr? && UniqueKeys(s.menuOptions.entries)
    ensures var user := s.menuOptions.entries;
      Lookup(MenuOptions(s).value, StrKey(key))
      == if Lookup(user, StrKey(key)).Some? then Lookup(user, StrKey(key)) else Lookup(MenuDefaults(s), StrKey(key))
  {
    MenuDefaultsUnique(s);
    ArrayMergeStringKey(MenuDefaults(s), s.menuOptions.entries, key);
  }

  /** The page the menu hook adds. */
  datatype MenuPage =
    | SubmenuPage(parent: Value, title: Value, menu: Value, capability: Value, slug: string, position: Value)
    | TopLevelPage(title: Value, menu: Value, capability: Value, slug: string, icon: Value, position: Value)

  /** `$o['k'] ?? null`. */
  function Get(o: Entries, k: string): Value {
    Coalesce(o, StrKey(k), VNull)
  }

  /** What the `admin_menu` hook does: a submenu page under a truthy `parent`,
      otherwise a top-level page. */
  function AdminMenuPage(s: SettingsState): (r: Result<MenuPage>)
    ensures r.Err? <==> !s.menuOptions.VArr?
    ensures r.Ok? ==> (r.value.SubmenuPage? <==> Truthy(Get(MenuOptions(s).value, "parent")))
    ensures r.Ok? ==> r.value.slug == s.slug
  {
    match MenuOptions(s)
    case Err(f) => Err(f)
    case Ok(o) =>
      if Truthy(Get(o, "parent")) then
        Ok(SubmenuPage(Get(o, "parent"), Get(o, "title"), Get(o, "menu"), Get(o, "capability"), s.slug, Get(o, "position")))
      else
        Ok(TopLevelPage(Get(o, "title"), Get(o, "menu"), Get(o, "capability"), s.slug, Get(o, "icon"), Get(o, "position")))
  }

  /** A `menu` call with `'parent' => null` and no capability gives a top-level
      page with the `manage_options` capability. */
  lemma NullParentGivesTopLevelPage(s: SettingsState, title: Value)
    requires !Truthy(s.role)
    requires s.menuOptions == VArr([(StrKey("parent"), VNull), (StrKey("title"), title)])
    ensures AdminMenuPage(s).Ok?
    ensures AdminMenuPage(s).value.TopLevelPage?
    ensures AdminMenuPage(s).value.capability == VStr("manage_options")
    ensures AdminMenuPage(s).value.title == title
  {
    DistinctKeysUnique(s.menuOptions.entries);
    MenuOptionsMerge(s, "parent");
    MenuOptionsMerge(s, "title");
    MenuOptionsMerge(s, "capability");
    LookupFirst(MenuDefaults(s), StrKey("capability"), 5);
    LookupMissing(s.menuOptions.entries, StrKey("capability"));
    LookupFirst(s.menuOptions.entries, StrKey("title"), 1);
    var o := MenuOptions(s).value;
    assert Lookup(o, StrKey("parent")) == Some(VNull);
    assert Lookup(o, StrKey("capability")) == Some(VStr("manage_options"));
    assert Lookup(o, StrKey("title")) == Some(title);
  }
}
